=== FILE: README.md ===
# Dependency context builder and build preparation, modelled in Dafny

This project models two pieces of the .NET CLI repository.

- **The dependency context builder** (`DependencyContextBuilder.Build`). It turns
  the compile-time and run-time library exports of a project into the
  dependency manifest:
  - the compilation options, copied field by field;
  - the target framework, rendered as `Identifier,Version=vX.Y[.Z[.W]]`;
  - the runtime identifier;
  - one compile library per compilation export and one runtime library per
    runtime export.

  Each library carries:
  - its type tag (`package`, `project`, `referenceassembly`, or `reference` for an unresolved library);
  - its name and normalized version;
  - its hash, as `sha512-<hash>` or empty;
  - the serviceable flag;
  - its dependencies, minus build-time edges, each recorded at the resolved
    version of the same-named export;
  - its assembly paths. Reference assemblies are recorded relative to the
    reference assemblies root, or by file name when outside it.

  The builder's own source is not part of this model. Its behaviour is fixed
  here by the scenarios of
  `test/Microsoft.Extensions.DependencyModel.Tests/DependencyContextBuilderTests.cs`.
  Every scenario is a lemma, and the general properties behind them are
  proved over all inputs.
- **The build preparation targets** (`scripts/dotnet-cli-build/PrepareTargets.cs`):
  - `ReadBranchInfo` reads a `KEY=VALUE` file into a dictionary. It is an
    imperative loop over the lines, specified by a fold and by declarative
    lemmas: which keys end up in the dictionary, and that the last entry wins.
  - `Init` picks the build configuration from an environment variable.
  - `CheckPackageCache` reads the cache expiry from the environment with
    `int.Parse` and decides whether the NuGet cache is cleared.

Modules:
- `Wrappers`: `Option` and `Result`.
- `Text`: the string operations the sources rely on, each with its inverse or
  characterisation:
  - decimal digits;
  - `StartsWith` and `EndsWith`;
  - `char.IsWhiteSpace` and `Trim`;
  - `Split(c, 2)` and `Split(c)`;
  - `Path.GetFileName`.
- `ProjectModel`: the project-model inputs. These are library descriptions,
  exports, assets and dependency edges; the three-part semantic version with
  its text form; and the target framework with its text form.
- `DependencyModel`: the manifest types and the builder.
- `DependencyModelProperties`: all-input properties of the builder.
- `DependencyModelExamples`: the builder's scenarios.
- `PrepareTargets`: configuration, `int.Parse`, cache expiry, time-stamp file
  and `ReadBranchInfo`.

## Model

| member | source | states |
|---|---|---|
| DependencyModel.DependencyContextBuilder.Build | test/Microsoft.Extensions.DependencyModel.Tests/DependencyContextBuilderTests.cs:24-36 | The manifest copies the options and runtime and renders the target framework. It has one compile library per compilation export and one runtime library per runtime export, in input order. Each library is built against its own export set only. |
| DependencyModel.DependencyContextBuilder.CompileLibraryOf | test/Microsoft.Extensions.DependencyModel.Tests/DependencyContextBuilderTests.cs:188-203 | A compile library takes its name, type tag, version text, prefixed hash, serviceable flag, filtered dependencies and normalized compilation assembly paths from its export. |
| DependencyModel.DependencyContextBuilder.RuntimeLibraryOf | test/Microsoft.Extensions.DependencyModel.Tests/DependencyContextBuilderTests.cs:135-155 | A runtime library takes the same identity fields. It maps every runtime assembly, resource assembly (path and locale) and runtime target one-to-one, in order. |
| DependencyModel.LibraryType | test/Microsoft.Extensions.DependencyModel.Tests/DependencyContextBuilderTests.cs:138 | The type tag determines the library kind: KindOfLibraryType reads it back, so distinct kinds get distinct tags. |
| DependencyModel.Serviceable | test/Microsoft.Extensions.DependencyModel.Tests/DependencyContextBuilderTests.cs:80-88 | Only a package description can be serviceable, and then as its lock-file entry says; ServiceableFollowsPackage states this for every library of both views. |
| DependencyModel.HashString | test/Microsoft.Extensions.DependencyModel.Tests/DependencyContextBuilderTests.cs:140 | The manifest hash is empty exactly when the description's hash is empty. Otherwise it is "sha512-" followed by the hash unchanged. |
| DependencyModel.ReferenceAssemblyPath | test/Microsoft.Extensions.DependencyModel.Tests/DependencyContextBuilderTests.cs:207-220 | Under the root (with a trailing separator), root + result gives back the resolved path. Outside it, the result is the resolved path's file name: a separator-free suffix of it. |
| DependencyModel.AssetPath | test/Microsoft.Extensions.DependencyModel.Tests/DependencyContextBuilderTests.cs:155 | Reference assemblies take the normalized resolved path. Every other kind takes the asset's relative path. |
| DependencyModel.AssetPaths | test/Microsoft.Extensions.DependencyModel.Tests/DependencyContextBuilderTests.cs:196 | One path per asset, in order, each normalized by AssetPath. |
| DependencyModel.FindVersion | test/Microsoft.Extensions.DependencyModel.Tests/DependencyContextBuilderTests.cs:142 | Lookup fails exactly when no export has the name. A found version belongs to the first export with that name. |
| DependencyModel.Dependencies | test/Microsoft.Extensions.DependencyModel.Tests/DependencyContextBuilderTests.cs:142 | The filtered dependency list is never longer than the edge list. |
| DependencyModel.DependenciesAppend | test/Microsoft.Extensions.DependencyModel.Tests/DependencyContextBuilderTests.cs:142 | Filtering works edge by edge: the filter of a concatenation is the concatenation of the filters, so kept edges keep their order and each gives its own record. |
| DependencyModel.CompilationOptionsOf | test/Microsoft.Extensions.DependencyModel.Tests/DependencyContextBuilderTests.cs:40-68 | Every compiler option is carried over unchanged. |
| DependencyModel.RuntimeTargetOf | test/Microsoft.Extensions.DependencyModel.Tests/DependencyContextBuilderTests.cs:146-148 | A runtime target keeps its runtime and lists its assemblies and native libraries by relative path, one-to-one and in order. |
| DependencyModelProperties.DependencyMembership | test/Microsoft.Extensions.DependencyModel.Tests/DependencyContextBuilderTests.cs:142 | Both directions: a dependency is recorded iff some edge is not build-only, its target is exported, and the record carries the target's resolved version. |
| DependencyModelProperties.BuildEdgesNeverRecorded | test/Microsoft.Extensions.DependencyModel.Tests/DependencyContextBuilderTests.cs:224-242 | A name reached only through build-time edges is never among the recorded dependencies. |
| DependencyModelProperties.DependenciesResolve | test/Microsoft.Extensions.DependencyModel.Tests/DependencyContextBuilderTests.cs:142 | Every recorded dependency names an export of the same set, and its version is that export's version text. |
| DependencyModelProperties.AbsentTargetsDropped | test/Microsoft.Extensions.DependencyModel.Tests/DependencyContextBuilderTests.cs:142 | An edge to a name that no export has is not recorded. |
| DependencyModelProperties.LibraryNamesFollowExports | test/Microsoft.Extensions.DependencyModel.Tests/DependencyContextBuilderTests.cs:135-137 | Both library lists name exactly their exports, in order. |
| DependencyModelProperties.UniqueNamesStayUnique | test/Microsoft.Extensions.DependencyModel.Tests/DependencyContextBuilderTests.cs:137 | Distinct export names give distinct library names in both views. |
| DependencyModelProperties.RuntimeOnlyExportNotCompiled | test/Microsoft.Extensions.DependencyModel.Tests/DependencyContextBuilderTests.cs:80-88 | A name absent from the compilation exports never appears among the compile libraries. |
| DependencyModelProperties.ViewsAreIndependent | test/Microsoft.Extensions.DependencyModel.Tests/DependencyContextBuilderTests.cs:24-36 | The compile libraries do not depend on the runtime exports, and the runtime libraries do not depend on the compilation exports. |
| DependencyModelProperties.ServiceableFollowsPackage | test/Microsoft.Extensions.DependencyModel.Tests/DependencyContextBuilderTests.cs:80-88 | In both views, a library is serviceable iff its export is a package whose lock-file entry is serviceable. |
| DependencyModelProperties.HashesArePrefixed | test/Microsoft.Extensions.DependencyModel.Tests/DependencyContextBuilderTests.cs:140 | Every hash in either view is empty or starts with "sha512-". |
| DependencyModelProperties.CompileHashesArePrefixed | test/Microsoft.Extensions.DependencyModel.Tests/DependencyContextBuilderTests.cs:193 | The same, for any list built one compile library per export. |
| DependencyModelProperties.RuntimeHashesArePrefixed | test/Microsoft.Extensions.DependencyModel.Tests/DependencyContextBuilderTests.cs:140 | The same, for any list built one runtime library per export. |
| DependencyModelExamples.PreservesCompilationOptions | test/Microsoft.Extensions.DependencyModel.Tests/DependencyContextBuilderTests.cs:40-68 | The scenario's eleven options all come out as given. |
| DependencyModelExamples.FillsRuntimeAndTarget | test/Microsoft.Extensions.DependencyModel.Tests/DependencyContextBuilderTests.cs:72-76 | Runtime "win8-x86", and target "SomeFramework,Version=v1.2" for framework SomeFramework 1.2. |
| DependencyModelExamples.TakesServicableFromPackageDescription | test/Microsoft.Extensions.DependencyModel.Tests/DependencyContextBuilderTests.cs:80-88 | A single serviceable package gives a single serviceable runtime library. |
| DependencyModelExamples.CollectionsResolved | test/Microsoft.Extensions.DependencyModel.Tests/DependencyContextBuilderTests.cs:142 | The edge to System.Collections, whose range is 2.1.2, is recorded at the exported version "3.3.3". |
| DependencyModelExamples.PackAgeRuntimeLibrary | test/Microsoft.Extensions.DependencyModel.Tests/DependencyContextBuilderTests.cs:137-148 | The package's runtime library: type, serviceable flag, hash, version, dependency, assembly, resource assembly and runtime target. |
| DependencyModelExamples.CollectionsRuntimeLibrary | test/Microsoft.Extensions.DependencyModel.Tests/DependencyContextBuilderTests.cs:150-155 | The reference assembly's runtime library: its type, version, empty hash, no dependencies, and the assembly recorded by file name. |
| DependencyModelExamples.FillsRuntimeLibraryProperties | test/Microsoft.Extensions.DependencyModel.Tests/DependencyContextBuilderTests.cs:92-155 | The whole runtime scenario: two libraries, with the properties above. |
| DependencyModelExamples.PackAgeCompileLibrary | test/Microsoft.Extensions.DependencyModel.Tests/DependencyContextBuilderTests.cs:190-196 | The package's compile library, in full. |
| DependencyModelExamples.CollectionsCompileLibrary | test/Microsoft.Extensions.DependencyModel.Tests/DependencyContextBuilderTests.cs:198-203 | The reference assembly's compile library, in full. |
| DependencyModelExamples.FillsCompileLibraryProperties | test/Microsoft.Extensions.DependencyModel.Tests/DependencyContextBuilderTests.cs:160-203 | The whole compile scenario: two libraries, as above. |
| DependencyModelExamples.ReferenceAssembliesPathRelativeToDefaultRoot | test/Microsoft.Extensions.DependencyModel.Tests/DependencyContextBuilderTests.cs:207-220 | An assembly resolved under "reference/assemblies" is recorded as "sub/System.Collections.dll". |
| DependencyModelExamples.CollectionsOutsideRoot | test/Microsoft.Extensions.DependencyModel.Tests/DependencyContextBuilderTests.cs:155 | A bare file name outside the root is recorded unchanged. |
| DependencyModelExamples.SkipsBuildDependencies | test/Microsoft.Extensions.DependencyModel.Tests/DependencyContextBuilderTests.cs:224-242 | A package whose only edge is build-time has no dependencies. |
| ProjectModel.VersionString | test/Microsoft.Extensions.DependencyModel.Tests/DependencyContextBuilderTests.cs:141 | The version text has at least five characters, and holds neither '-' nor '+' exactly when the release label and metadata are both empty. |
| ProjectModel.DisplayVersion | test/Microsoft.Extensions.DependencyModel.Tests/DependencyContextBuilderTests.cs:76 | The framework version text contains a '.' and no ','. |
| ProjectModel.FrameworkName | test/Microsoft.Extensions.DependencyModel.Tests/DependencyContextBuilderTests.cs:76 | The target-framework text starts with the identifier, and its last ',' sits right after it. |
| ProjectModel.CommaJoin | test/Microsoft.Extensions.DependencyModel.Tests/DependencyContextBuilderTests.cs:76 | Joining a text and a comma-free tail with ',' puts the last ',' right after the text, which is a prefix. |
| ProjectModel.VersionRoundTrip | test/Microsoft.Extensions.DependencyModel.Tests/DependencyContextBuilderTests.cs:141 | The recorded version text parses back to the version, release label and metadata included, when the release label holds no '+'. |
| ProjectModel.ParseVersionOf | test/Microsoft.Extensions.DependencyModel.Tests/DependencyContextBuilderTests.cs:22 | A numeric core, an optional "-release" and an optional "+metadata" split back into their parts. |
| ProjectModel.ParseVersionCoreRoundTrip | test/Microsoft.Extensions.DependencyModel.Tests/DependencyContextBuilderTests.cs:141 | "a.b.c" reads back as (a, b, c). |
| ProjectModel.VersionStringInjective | test/Microsoft.Extensions.DependencyModel.Tests/DependencyContextBuilderTests.cs:152 | Distinct versions whose release labels hold no '+' are recorded as distinct text. |
| ProjectModel.DisplayVersionRoundTrip | test/Microsoft.Extensions.DependencyModel.Tests/DependencyContextBuilderTests.cs:76 | The framework version text has no ',' and parses back to the version, for two, three or four components. |
| ProjectModel.DisplayVersionRoundTrip2 | test/Microsoft.Extensions.DependencyModel.Tests/DependencyContextBuilderTests.cs:74-76 | The same for "major.minor". |
| ProjectModel.DisplayVersionRoundTrip3 | test/Microsoft.Extensions.DependencyModel.Tests/DependencyContextBuilderTests.cs:30 | The same for "major.minor.build" (net451 is 4.5.1). |
| ProjectModel.DisplayVersionRoundTrip4 | test/Microsoft.Extensions.DependencyModel.Tests/DependencyContextBuilderTests.cs:76 | The same for four components. |
| ProjectModel.ParseDisplayVersionOf | test/Microsoft.Extensions.DependencyModel.Tests/DependencyContextBuilderTests.cs:76 | Two to four dot-separated decimal pieces read back as the framework version. |
| ProjectModel.FrameworkNameRoundTrip | test/Microsoft.Extensions.DependencyModel.Tests/DependencyContextBuilderTests.cs:76 | The target-framework text parses back to the identifier and version it came from, whatever the identifier. |
| ProjectModel.ParseFrameworkNameOf | test/Microsoft.Extensions.DependencyModel.Tests/DependencyContextBuilderTests.cs:76 | An identifier, ",Version=v" and a comma-free version read back as the framework. |
| Text.NatToString | scripts/dotnet-cli-build/PrepareTargets.cs:153 | Decimal text is non-empty, all digits, and has no leading zero unless it is "0". |
| Text.NatRoundTrip | scripts/dotnet-cli-build/PrepareTargets.cs:153 | Decimal text parses back to the number. |
| Text.NatToStringInjective | test/Microsoft.Extensions.DependencyModel.Tests/DependencyContextBuilderTests.cs:141 | Distinct numbers give distinct text. |
| Text.IsWhiteSpace | scripts/dotnet-cli-build/PrepareTargets.cs:210 | Space, tab, line feed and carriage return are white space; digits, '#', '=', '-' and '+' are not. |
| Text.IsBlank | scripts/dotnet-cli-build/PrepareTargets.cs:210 | A text is blank iff its leading white space is all of it. |
| Text.TrailingWhiteIsWhite | scripts/dotnet-cli-build/PrepareTargets.cs:210 | The trailing white space that Trim drops is blank. |
| Text.Trim | scripts/dotnet-cli-build/PrepareTargets.cs:210 | The trimmed text is empty exactly when the line is blank. Otherwise it neither starts nor ends with white space. It begins where the leading white space ends, and everything after it is white space. |
| Text.SplitAtFirst | scripts/dotnet-cli-build/PrepareTargets.cs:212 | No split happens exactly when the separator is absent. Otherwise the two parts joined by the separator give back the text, and the first part has no separator. |
| Text.SplitAtFirstJoin | scripts/dotnet-cli-build/PrepareTargets.cs:212 | Splitting "k=v" with k free of '=' gives back (k, v), even when v contains '='. |
| Text.FileName | test/Microsoft.Extensions.DependencyModel.Tests/DependencyContextBuilderTests.cs:155 | The file name is a separator-free suffix of the path, and the whole path when the path has no separator. Otherwise it is exactly what follows the last separator. |
| Text.SplitAllJoin | test/Microsoft.Extensions.DependencyModel.Tests/DependencyContextBuilderTests.cs:76 | Splitting "a.rest" on '.', with a free of '.', gives a followed by the pieces of rest. |
| PrepareTargets.Configuration | scripts/dotnet-cli-build/PrepareTargets.cs:26-33 | The configuration is the variable's value when set and non-empty, and "Debug" otherwise. It is never empty. |
| PrepareTargets.ConfigurationIdempotent | scripts/dotnet-cli-build/PrepareTargets.cs:28-31 | Feeding a chosen configuration back in chooses it again. |
| PrepareTargets.ParseInt32 | scripts/dotnet-cli-build/PrepareTargets.cs:153 | A parsed value always fits in 32 bits. |
| PrepareTargets.ParseInt32OutOfRange | scripts/dotnet-cli-build/PrepareTargets.cs:153 | The decimal text of every integer outside 32 bits, negative ones included, is an overflow error, never a wrapped value. |
| PrepareTargets.ParseInt32NoDigits | scripts/dotnet-cli-build/PrepareTargets.cs:153 | Text without a decimal digit, the empty text included, is a format error. |
| PrepareTargets.ParseInt32RoundTrip | scripts/dotnet-cli-build/PrepareTargets.cs:153 | Every 32-bit integer, negative ones included, parses back from its decimal text. |
| PrepareTargets.NumberBodyUntrimmed | scripts/dotnet-cli-build/PrepareTargets.cs:153 | Text without surrounding white space is parsed as it is. |
| PrepareTargets.CacheExpirationHours | scripts/dotnet-cli-build/PrepareTargets.cs:149-154 | An unset or empty setting gives 168 hours (seven days). Otherwise the setting is parsed as a 32-bit integer, and a parse error surfaces. |
| PrepareTargets.ShouldClearCache | scripts/dotnet-cli-build/PrepareTargets.cs:179 | The cache is cleared iff the time stamp is unknown or its expiry lies strictly before now. |
| PrepareTargets.CheckPackageCache | scripts/dotnet-cli-build/PrepareTargets.cs:127-190 | The check fails exactly when the expiry setting does not parse. Outside CI nothing is cleared. On CI the cache is cleared by the expiry rule, and clearing records now as the time stamp. |
| PrepareTargets.CacheCheckSettles | scripts/dotnet-cli-build/PrepareTargets.cs:179-185 | With a non-negative expiry, a second run at the same moment, handed the stamp the first run recorded, keeps the cache. This holds when the file gives the stamp back (CacheTimeFromFile); as written it does not (StampClearedAgainAsWritten). |
| PrepareTargets.ClearingIsMonotone | scripts/dotnet-cli-build/PrepareTargets.cs:179 | A cache due for clearing at some time is due at every later time. |
| PrepareTargets.FormatCacheTime | scripts/dotnet-cli-build/PrepareTargets.cs:185 | The written time stamp is never empty. |
| PrepareTargets.CacheTimeRoundTrip | scripts/dotnet-cli-build/PrepareTargets.cs:185 | The written time stamp parses back to the time. |
| PrepareTargets.CacheTimeFromFileAsWritten | scripts/dotnet-cli-build/PrepareTargets.cs:160-177 | As written, a missing or empty file, or text without the letter 'O', gives an unknown time stamp. Text holding an 'O' gives what parsing "O" with it as the format gives, a parameter here. |
| PrepareTargets.StampHasNoLetterO | scripts/dotnet-cli-build/PrepareTargets.cs:185 | No stamp the check writes holds the letter 'O'. |
| PrepareTargets.CacheTimeFromFile | scripts/dotnet-cli-build/PrepareTargets.cs:160-177 | A missing or empty file gives no time stamp. Otherwise the time stamp is what the file's text parses to, or unknown when it does not parse. |
| PrepareTargets.CacheClearedWithoutLetterOAsWritten | scripts/dotnet-cli-build/PrepareTargets.cs:169 | As written, a CI build clears the cache whenever the file is missing, empty or free of the letter 'O'. |
| PrepareTargets.StampClearedAgainAsWritten | scripts/dotnet-cli-build/PrepareTargets.cs:169-185 | As written, the stamp line 185 writes reads back as unknown, so the next CI build clears the cache again. |
| PrepareTargets.CacheKeptAfterClearing | scripts/dotnet-cli-build/PrepareTargets.cs:179-185 | With the intended reading, the stamp a clearing run writes reads back as its time. The next run keeps the cache until the expiry has passed, and clears it after. |
| PrepareTargets.SkippedIsTrimmedCommentOrBlank | scripts/dotnet-cli-build/PrepareTargets.cs:210 | The skip test used by the model is exactly "trimmed line starts with '#', or line is blank". |
| PrepareTargets.Entry | scripts/dotnet-cli-build/PrepareTargets.cs:210-213 | A line yields no entry iff it is skipped or has no '='. An entry's key, '=' and value give back the line, and the key has no '='. |
| PrepareTargets.ReadBranchInfo | scripts/dotnet-cli-build/PrepareTargets.cs:203-218 | Reading fails iff some line is malformed, and the error names the first such line. On success the dictionary holds exactly the keys some line defines, each with the value of its last defining line. |
| PrepareTargets.BranchInfoKeys | scripts/dotnet-cli-build/PrepareTargets.cs:208-213 | Both directions: a key is in the dictionary iff some entry line defines it. |
| PrepareTargets.BranchInfoLastWins | scripts/dotnet-cli-build/PrepareTargets.cs:213 | A key is present iff it has a last definition, and its value is that definition's value. |
| PrepareTargets.LastValueIsLast | scripts/dotnet-cli-build/PrepareTargets.cs:213 | The value kept for a key comes from a line defining it after which no line defines it. |
| PrepareTargets.DefinedHasLastValue | scripts/dotnet-cli-build/PrepareTargets.cs:213 | A key defined by any line has a last definition. |
| PrepareTargets.LastDefinitionExtends | scripts/dotnet-cli-build/PrepareTargets.cs:208 | Appending a line that does not define the key keeps the last definition. |
| PrepareTargets.BranchInfoSnoc | scripts/dotnet-cli-build/PrepareTargets.cs:208-213 | One more line adds its entry to the dictionary, or nothing. |
| PrepareTargets.SampleEntries | scripts/dotnet-cli-build/PrepareTargets.cs:210-212 | Comment and blank lines give no entry. "B=x=y" splits into "B" and "x=y". |
| PrepareTargets.SampleBranchInfo | scripts/dotnet-cli-build/PrepareTargets.cs:203-218 | A file with comments, a blank line, a value containing '=' and a repeated key reads as {A: 2, B: x=y}. |

## Left out

- The builder's own source is not part of this model. Its behaviour comes
  from the scenarios above, and four choices the scenarios leave open
  follow the tests:
  - An edge whose target is not in the export set is dropped. The tests
    always export the target.
  - When several exports share a name, the first one's version is used. The
    original could equally throw on duplicate names.
  - Asset paths. A reference assembly is recorded by its resolved path,
    relative to the root (the test at lines 207-220). Outside the root the
    model records its file name. The tests at lines 155 and 203 resolve bare
    file names, so they do not force this fallback; it is the model's choice.
  - Exports that share a name are passed through: Build gives one library
    per export, so two libraries can carry the same name. Only
    UniqueNamesStayUnique assumes distinct names.
- Dependencies: edges are not deduplicated. Two kept edges to the same name
  give two records (DependenciesAppend); the tests never list a target twice.
- Versions:
  - The model's SemVer has three numeric components; NuGet's legacy fourth
    (Revision) component, as in "1.2.3.4", is not modelled. Release labels
    are single strings. VersionRoundTrip needs release labels without
    '+', as in NuGet's grammar.
  - Version ranges are carried but never evaluated; the builder only records
    resolved versions.
- Paths:
  - `Path.Combine` is modelled with '/' as the only separator.
  - Path and name comparison is ordinal and case-sensitive.
- Text functions:
  - `string.StartsWith("#")` is culture-sensitive in the original; the model
    compares ordinally.
  - `int.Parse` is modelled for the invariant culture. Leading and trailing
    white space, a sign, at least one digit and the 32-bit range are kept.
    Trailing NUL characters, thousands separators and other styles are not
    modelled.
- I/O and other effects:
  - Environment variables, file contents and the clock enter as parameters:
    the variable's value or None, the file's lines, the time in whole hours.
  - `File.ReadAllLines` is not modelled; a missing file throws before the
    loop and is not modelled either.
  - Logging (`c.Info`, `c.Verbose`, `c.Warn`) is not modelled.
- CheckPackageCache: takes as a bool whether CI_BUILD is set to "1". The
  ordinal comparison of the variable with "1" at line 129 is not modelled.
  - Deleting and recreating the cache directory and writing the file are
    reduced to the decision and the new time stamp.
  - Setting `NUGET_PACKAGES` and `CleanNuGetTempCache` are not modelled.
  - ShouldClearCache compares whole hours.
  - FormatCacheTime and ParseCacheTime stand for the round-trip ("O") date
    format as decimal hours. Besides their round trip, StampHasNoLetterO
    uses that the stamp holds no 'O'. That is also true of the real "O"
    text, which is made of digits, '-', 'T', ':', '.' and 'Z'.
  - CacheKeptAfterClearing reads the stamp back in UTC. The corrected call
    would need `DateTimeStyles.RoundtripKind` (or `AdjustToUniversal`) for
    this. With `AssumeUniversal` alone the parsed stamp becomes local time,
    and its comparison with `DateTime.UtcNow` is off by the UTC offset. That
    offset is not modelled.
- CheckPackageCache: "fails exactly when the expiry setting does not parse"
  holds only in the model. At line 179 `AddHours(cacheExpiration)` throws
  ArgumentOutOfRangeException whenever the result leaves the years 1 to
  9999 (for a 2016 stamp, an expiry above about 70 million hours or below
  about -17.7 million). Line 179 is outside the try at lines 161-177, so
  the target fails there; the model has no such failure.
- CacheTimeFromFileAsWritten: the file's text used as a custom date format
  is not modelled. Only the letter 'O' is looked at: a text without it
  cannot match "O". What a text with an 'O' gives (a quoted 'O' matches and
  yields today at midnight, which keeps the cache) is a parameter.
- CacheClearedWithoutLetterOAsWritten: promises clearing only for a missing or empty
  file or one without the letter 'O'. A format such as 'O' keeps the cache
  in the original, and the lemma says nothing about it.
- `GenerateVersions`, `LocateStage0`, `CheckPrereqs` (runs cmake),
  `RestorePackages` (runs restore) and `tools/PackageMirrorer` are not
  modelled. They are process and file I/O around the modelled logic.
  `GenerateVersions` refers to `commitCount` and `commitHash`, whose
  definitions are commented out at lines 46-56, so as written it does not
  compile.
- Project descriptions and unresolved libraries are modelled as kinds.
  Only package descriptions carry a serviceable flag.

## Findings

| source | as written | input that shows it | evidently intended | confidence | as-written member | corrected member |
|---|---|---|---|---|---|---|
| scripts/dotnet-cli-build/PrepareTargets.cs:169 | `DateTime.ParseExact("O", content, …)` parses the literal text "O" using the file's text as the format. For every stamp line 185 writes (any text that is not a format matching the literal "O") it throws; the exception is caught, the time stamp stays unknown, and line 179 clears the cache. | A cache-time file holding the stamp that line 185 wrote, read on the next CI build at the same time | `DateTime.ParseExact(content, "O", CultureInfo.InvariantCulture, DateTimeStyles.RoundtripKind)`: read back the written stamp as UTC and keep the cache until it expires | high; not executed | PrepareTargets.StampClearedAgainAsWritten | PrepareTargets.CacheKeptAfterClearing |

=== FILE: dependency_model.dfy ===
/**
 * The dependency context (deps manifest) and the builder that produces it
 * from a project's compile-time and run-time library exports. The builder is
 * a pure function: classification of each library, its hash, its filtered
 * dependency edges and its normalised asset paths, assembled into two
 * independent, order-preserving lists.
 */
module DependencyModel {
  import opened Wrappers
  import opened Text
  import opened ProjectModel

  /** A dependency edge as the manifest records it: the dependent's name and resolved version. */
  datatype Dependency = Dependency(name: string, version: string)

  /** The compiler options recorded in the manifest. */
  datatype CompilationOptions = CompilationOptions(
    defines: seq<string>,
    languageVersion: Option<string>,
    platform: Option<string>,
    allowUnsafe: Option<bool>,
    warningsAsErrors: Option<bool>,
    optimize: Option<bool>,
    keyFile: Option<string>,
    delaySign: Option<bool>,
    publicSign: Option<bool>,
    emitEntryPoint: Option<bool>,
    generateXmlDocumentation: Option<bool>)

  datatype CompileLibrary = CompileLibrary(
    libraryType: string,
    name: string,
    version: string,
    hash: string,
    assemblies: seq<string>,
    dependencies: seq<Dependency>,
    serviceable: bool)

  datatype RuntimeAssembly = RuntimeAssembly(path: string)

  datatype ResourceAssembly = ResourceAssembly(path: string, locale: string)

  datatype RuntimeTarget = RuntimeTarget(runtime: string, assemblies: seq<RuntimeAssembly>, nativeLibraries: seq<string>)

  datatype RuntimeLibrary = RuntimeLibrary(
    libraryType: string,
    name: string,
    version: string,
    hash: string,
    assemblies: seq<RuntimeAssembly>,
    resourceAssemblies: seq<ResourceAssembly>,
    runtimeTargets: seq<RuntimeTarget>,
    dependencies: seq<Dependency>,
    serviceable: bool)

  /** The manifest for one target framework and one runtime identifier. */
  datatype DependencyContext = DependencyContext(
    targetFramework: string,
    runtime: string,
    compilationOptions: CompilationOptions,
    compileLibraries: seq<CompileLibrary>,
    runtimeLibraries: seq<RuntimeLibrary>)

  const HashPrefix: string := "sha512-"

  /** Library classifier: the manifest's type tag of a library kind. */
  function LibraryType(kind: LibraryKind): (tag: string)
    ensures KindOfLibraryType(tag) == Some(kind)
  {
    match kind
    case Package => "package"
    case Project => "project"
    case ReferenceAssembly => "referenceassembly"
    case Unresolved => "reference"
  }

  /** The kind a type tag names; None for a text that is no tag. */
  function KindOfLibraryType(tag: string): Option<LibraryKind> {
    if tag == "package" then Some(Package)
    else if tag == "project" then Some(Project)
    else if tag == "referenceassembly" then Some(ReferenceAssembly)
    else if tag == "reference" then Some(Unresolved)
    else None
  }

  /** The manifest hash: empty when the library has none, otherwise the algorithm-prefixed form. */
  function HashString(hash: string): (r: string)
    ensures r == "" <==> hash == ""
    ensures r != "" ==> StartsWith(r, HashPrefix) && r[|HashPrefix|..] == hash
  {
    if hash == "" then "" else HashPrefix + hash
  }

  /** Only packages carry a serviceable flag; every other library is not serviceable. */
  function Serviceable(d: LibraryDescription): bool {
    d.identity.kind == Package && d.serviceable
  }

  /**
   * The path recorded for a reference assembly: relative to the reference
   * assemblies root when the resolved path lies under it, otherwise only its
   * file name.
   */
  function ReferenceAssemblyPath(root: string, resolvedPath: string): (r: string)
    ensures StartsWith(resolvedPath, EnsureTrailingSeparator(root)) ==>
              EnsureTrailingSeparator(root) + r == resolvedPath
    ensures !StartsWith(resolvedPath, EnsureTrailingSeparator(root)) ==>
              r == FileName(resolvedPath) && Separator !in r && EndsWith(resolvedPath, r)
  {
    var prefix := EnsureTrailingSeparator(root);
    if StartsWith(resolvedPath, prefix) then
      assert prefix + resolvedPath[|prefix|..] == resolvedPath;
      resolvedPath[|prefix|..]
    else FileName(resolvedPath)
  }

  /** Asset normaliser for compile-time and run-time assemblies. */
  function AssetPath(root: string, kind: LibraryKind, asset: LibraryAsset): (r: string)
    ensures kind != ReferenceAssembly ==> r == asset.relativePath
    ensures kind == ReferenceAssembly ==> r == ReferenceAssemblyPath(root, asset.resolvedPath)
  {
    if kind == ReferenceAssembly then ReferenceAssemblyPath(root, asset.resolvedPath)
    else asset.relativePath
  }

  function AssetPaths(root: string, kind: LibraryKind, assets: seq<LibraryAsset>): (r: seq<string>)
    ensures |r| == |assets|
    ensures forall i :: 0 <= i < |assets| ==> r[i] == AssetPath(root, kind, assets[i])
  {
    seq(|assets|, i requires 0 <= i < |assets| => AssetPath(root, kind, assets[i]))
  }

  /** The version of the first export named `name`, if the export set has one. */
  function FindVersion(exports: seq<LibraryExport>, name: string): (r: Option<SemVer>)
    ensures r.None? <==> forall i :: 0 <= i < |exports| ==> ExportName(exports[i]) != name
    ensures r.Some? ==> exists i :: 0 <= i < |exports| && ExportName(exports[i]) == name
                                    && exports[i].library.identity.version == r.value
                                    && forall j :: 0 <= j < i ==> ExportName(exports[j]) != name
  {
    if |exports| == 0 then None
    else if ExportName(exports[0]) == name then Some(exports[0].library.identity.version)
    else
      var r := FindVersion(exports[1..], name);
      assert forall i :: 1 <= i < |exports| ==> exports[1..][i - 1] == exports[i];
      r
  }

  /**
   * Dependency edge filter: drops build-time edges and edges to libraries
   * absent from the export set; a kept edge records the resolved version of
   * the same-named export, not the edge's range. Order is preserved.
   */
  function Dependencies(edges: seq<LibraryRange>, exports: seq<LibraryExport>): (r: seq<Dependency>)
    ensures |r| <= |edges|
  {
    if |edges| == 0 then []
    else
      var rest := Dependencies(edges[1..], exports);
      var e := edges[0];
      if e.dependencyType == Build then rest
      else match FindVersion(exports, e.name)
        case None => rest
        case Some(v) => [Dependency(e.name, VersionString(v))] + rest
  }

  /**
   * The filter works edge by edge: filtering a concatenation concatenates the
   * filtered parts, so kept edges stay in their order and each kept edge
   * gives its own record, duplicates included.
   */
  lemma {:induction false} DependenciesAppend(a: seq<LibraryRange>, b: seq<LibraryRange>, exports: seq<LibraryExport>)
    ensures Dependencies(a + b, exports) == Dependencies(a, exports) + Dependencies(b, exports)
  {
    if |a| > 0 {
      assert (a + b)[1..] == a[1..] + b;
      assert (a + b)[0] == a[0];
      DependenciesAppend(a[1..], b, exports);
    } else {
      assert a + b == b;
    }
  }

  function CompilationOptionsOf(o: CommonCompilerOptions): (r: CompilationOptions)
    ensures r.defines == o.defines && r.languageVersion == o.languageVersion
    ensures r.platform == o.platform && r.allowUnsafe == o.allowUnsafe
    ensures r.warningsAsErrors == o.warningsAsErrors && r.optimize == o.optimize
    ensures r.keyFile == o.keyFile && r.delaySign == o.delaySign && r.publicSign == o.publicSign
    ensures r.emitEntryPoint == o.emitEntryPoint
    ensures r.generateXmlDocumentation == o.generateXmlDocumentation
  {
    CompilationOptions(o.defines, o.languageVersion, o.platform, o.allowUnsafe, o.warningsAsErrors,
      o.optimize, o.keyFile, o.delaySign, o.publicSign, o.emitEntryPoint, o.generateXmlDocumentation)
  }

  function RuntimeTargetOf(t: LibraryRuntimeTarget): (r: RuntimeTarget)
    ensures r.runtime == t.runtime
    ensures |r.assemblies| == |t.runtimeAssemblies| && |r.nativeLibraries| == |t.nativeLibraries|
    ensures forall i :: 0 <= i < |r.assemblies| ==> r.assemblies[i].path == t.runtimeAssemblies[i].relativePath
    ensures forall i :: 0 <= i < |r.nativeLibraries| ==> r.nativeLibraries[i] == t.nativeLibraries[i].relativePath
  {
    RuntimeTarget(
      t.runtime,
      seq(|t.runtimeAssemblies|, i requires 0 <= i < |t.runtimeAssemblies| => RuntimeAssembly(t.runtimeAssemblies[i].relativePath)),
      seq(|t.nativeLibraries|, i requires 0 <= i < |t.nativeLibraries| => t.nativeLibraries[i].relativePath))
  }

  /** The dependency-context builder, configured with the reference assemblies root. */
  datatype DependencyContextBuilder = DependencyContextBuilder(referenceAssembliesPath: string)
  {
    /** The compile-time view of one export; `exports` is the compile-time export set. */
    function CompileLibraryOf(e: LibraryExport, exports: seq<LibraryExport>): (r: CompileLibrary)
      ensures r.name == ExportName(e)
      ensures r.libraryType == LibraryType(e.library.identity.kind)
      ensures r.version == VersionString(e.library.identity.version)
      ensures r.hash == HashString(e.library.hash)
      ensures r.serviceable == Serviceable(e.library)
      ensures r.dependencies == Dependencies(e.library.dependencies, exports)
      ensures r.assemblies == AssetPaths(referenceAssembliesPath, e.library.identity.kind, e.compilationAssemblies)
    {
      var id := e.library.identity;
      CompileLibrary(
        LibraryType(id.kind),
        id.name,
        VersionString(id.version),
        HashString(e.library.hash),
        AssetPaths(referenceAssembliesPath, id.kind, e.compilationAssemblies),
        Dependencies(e.library.dependencies, exports),
        Serviceable(e.library))
    }

    /** The run-time view of one export; `exports` is the run-time export set. */
    function RuntimeLibraryOf(e: LibraryExport, exports: seq<LibraryExport>): (r: RuntimeLibrary)
      ensures r.name == ExportName(e)
      ensures r.libraryType == LibraryType(e.library.identity.kind)
      ensures r.version == VersionString(e.library.identity.version)
      ensures r.hash == HashString(e.library.hash)
      ensures r.serviceable == Serviceable(e.library)
      ensures r.dependencies == Dependencies(e.library.dependencies, exports)
      ensures |r.assemblies| == |e.runtimeAssemblies|
      ensures forall i :: 0 <= i < |r.assemblies| ==>
                r.assemblies[i].path == AssetPath(referenceAssembliesPath, e.library.identity.kind, e.runtimeAssemblies[i])
      ensures |r.resourceAssemblies| == |e.resourceAssemblies|
      ensures forall i :: 0 <= i < |r.resourceAssemblies| ==>
                r.resourceAssemblies[i] == ResourceAssembly(e.resourceAssemblies[i].asset.relativePath, e.resourceAssemblies[i].locale)
      ensures |r.runtimeTargets| == |e.runtimeTargets|
      ensures forall i :: 0 <= i < |r.runtimeTargets| ==> r.runtimeTargets[i] == RuntimeTargetOf(e.runtimeTargets[i])
    {
      var id := e.library.identity;
      var paths := AssetPaths(referenceAssembliesPath, id.kind, e.runtimeAssemblies);
      RuntimeLibrary(
        LibraryType(id.kind),
        id.name,
        VersionString(id.version),
        HashString(e.library.hash),
        seq(|paths|, i requires 0 <= i < |paths| => RuntimeAssembly(paths[i])),
        seq(|e.resourceAssemblies|, i requires 0 <= i < |e.resourceAssemblies| =>
          ResourceAssembly(e.resourceAssemblies[i].asset.relativePath, e.resourceAssemblies[i].locale)),
        seq(|e.runtimeTargets|, i requires 0 <= i < |e.runtimeTargets| => RuntimeTargetOf(e.runtimeTargets[i])),
        Dependencies(e.library.dependencies, exports),
        Serviceable(e.library))
    }

    /**
     * Context assembler: one compile library per compilation export and one
     * runtime library per runtime export, in input order, each pass looking
     * up dependencies in its own export set only.
     */
    function Build(
      options: CommonCompilerOptions,
      compilationExports: seq<LibraryExport>,
      runtimeExports: seq<LibraryExport>,
      target: Framework,
      runtime: string): (r: DependencyContext)
      ensures r.compilationOptions == CompilationOptionsOf(options)
      ensures r.runtime == runtime
      ensures r.targetFramework == FrameworkName(target)
      ensures |r.compileLibraries| == |compilationExports|
      ensures forall i :: 0 <= i < |compilationExports| ==>
                r.compileLibraries[i] == CompileLibraryOf(compilationExports[i], compilationExports)
      ensures |r.runtimeLibraries| == |runtimeExports|
      ensures forall i :: 0 <= i < |runtimeExports| ==>
                r.runtimeLibraries[i] == RuntimeLibraryOf(runtimeExports[i], runtimeExports)
    {
      DependencyContext(
        FrameworkName(target),
        runtime,
        CompilationOptionsOf(options),
        seq(|compilationExports|, i requires 0 <= i < |compilationExports| =>
          CompileLibraryOf(compilationExports[i], compilationExports)),
        seq(|runtimeExports|, i requires 0 <= i < |runtimeExports| =>
          RuntimeLibraryOf(runtimeExports[i], runtimeExports)))
    }
  }
}

=== FILE: dependency_model_examples.dfy ===
/**
 * The builder's documented scenarios, each stated as a lemma over concrete
 * exports: option passthrough, runtime and target rendering, library
 * classification, hashes, resolved dependency versions, build-edge skipping
 * and reference-assembly path normalisation.
 */
module DependencyModelExamples {
  import opened Wrappers
  import opened Text
  import opened ProjectModel
  import opened DependencyModel

  /** The reference assemblies root the scenarios configure: "reference" joined with "assemblies". */
  const ReferenceAssembliesPath: string := "reference/assemblies"

  const Builder: DependencyContextBuilder := DependencyContextBuilder(ReferenceAssembliesPath)

  const NoOptions: CommonCompilerOptions :=
    CommonCompilerOptions([], None, None, None, None, None, None, None, None, None, None)

  /** net451. */
  const DefaultFramework: Framework := Framework(".NETFramework", FrameworkVersion(4, 5, Some(1), None))

  /** The version a package description gets when none is given: 1.2.3-dev. */
  const DefaultVersion: SemVer := SemVer(1, 2, 3, "dev", "")

  function V(major: nat, minor: nat, patch: nat): SemVer {
    SemVer(major, minor, patch, "", "")
  }

  function Asset(relativePath: string, resolvedPath: string): LibraryAsset {
    LibraryAsset("Dll", relativePath, resolvedPath)
  }

  function PackageExport(
    name: string, version: SemVer, hash: string, serviceable: bool, dependencies: seq<LibraryRange>,
    compilationAssemblies: seq<LibraryAsset>, runtimeAssemblies: seq<LibraryAsset>,
    runtimeTargets: seq<LibraryRuntimeTarget>, resourceAssemblies: seq<LibraryResourceAssembly>): LibraryExport
  {
    LibraryExport(
      LibraryDescription(LibraryIdentity(name, version, Package), hash, serviceable, dependencies),
      compilationAssemblies, runtimeAssemblies, runtimeTargets, resourceAssemblies)
  }

  /** Framework assemblies have no hash. */
  function ReferenceAssemblyExport(
    name: string, version: SemVer,
    compilationAssemblies: seq<LibraryAsset>, runtimeAssemblies: seq<LibraryAsset>): LibraryExport
  {
    LibraryExport(
      LibraryDescription(LibraryIdentity(name, version, ReferenceAssembly), "", false, []),
      compilationAssemblies, runtimeAssemblies, [], [])
  }

  function CollectionsEdge(dependencyType: DependencyType): LibraryRange {
    LibraryRange("System.Collections", AtLeast(V(2, 1, 2)), ReferenceAssembly, dependencyType)
  }

  lemma SmallNumbers()
    ensures NatToString(1) == "1" && NatToString(2) == "2" && NatToString(3) == "3"
    ensures VersionString(V(1, 2, 3)) == "1.2.3" && VersionString(V(3, 3, 3)) == "3.3.3"
  {
  }

  /** A bare file name outside the root is recorded as it is. */
  lemma CollectionsOutsideRoot()
    ensures ReferenceAssemblyPath(ReferenceAssembliesPath, "System.Collections.dll") == "System.Collections.dll"
  {
    var prefix := EnsureTrailingSeparator(ReferenceAssembliesPath);
    assert prefix == "reference/assemblies/";
    assert "System.Collections.dll"[0] != prefix[0];
    assert !StartsWith("System.Collections.dll", prefix);
    assert Separator !in "System.Collections.dll";
  }

  lemma PreservesCompilationOptions()
    ensures var options := CommonCompilerOptions(["Define", "D"], Some("C#8"), Some("Platform"),
              Some(true), Some(true), Some(true), Some("Key.snk"), Some(true), Some(true), Some(true), Some(true));
            var o := Builder.Build(options, [], [], DefaultFramework, "").compilationOptions;
            && o.allowUnsafe == Some(true) && o.delaySign == Some(true) && o.emitEntryPoint == Some(true)
            && o.generateXmlDocumentation == Some(true) && o.optimize == Some(true)
            && o.publicSign == Some(true) && o.warningsAsErrors == Some(true)
            && o.defines == ["Define", "D"] && o.keyFile == Some("Key.snk")
            && o.languageVersion == Some("C#8") && o.platform == Some("Platform")
  {
  }

  lemma SomeFrameworkName()
    ensures FrameworkName(Framework("SomeFramework", FrameworkVersion(1, 2, None, None))) == "SomeFramework,Version=v1.2"
  {
    SmallNumbers();
    SomeFrameworkText();
  }

  lemma SomeFrameworkText()
    ensures "SomeFramework" + ",Version=v" + "1.2" == "SomeFramework,Version=v1.2"
  {
  }

  lemma FillsRuntimeAndTarget()
    ensures var ctx := Builder.Build(NoOptions, [], [], Framework("SomeFramework", FrameworkVersion(1, 2, None, None)), "win8-x86");
            ctx.runtime == "win8-x86" && ctx.targetFramework == "SomeFramework,Version=v1.2"
  {
    SomeFrameworkName();
  }

  lemma TakesServicableFromPackageDescription()
    ensures var ctx := Builder.Build(NoOptions, [],
              [PackageExport("Pack.Age", DefaultVersion, "Hash", true, [], [], [], [], [])], DefaultFramework, "");
            |ctx.runtimeLibraries| == 1 && ctx.runtimeLibraries[0].serviceable
  {
  }

  function RuntimePackAge(): LibraryExport {
    PackageExport("Pack.Age", V(1, 2, 3), "Hash", true, [CollectionsEdge(Default)],
      [],
      [Asset("lib/Pack.Age.dll", "")],
      [LibraryRuntimeTarget("win8-x64", [Asset("win8-x64/Pack.Age.dll", "")], [Asset("win8-x64/Pack.Age.native.dll", "")])],
      [LibraryResourceAssembly(Asset("en-US/Pack.Age.resources.dll", ""), "en-US")])
  }

  function RuntimeCollections(): LibraryExport {
    ReferenceAssemblyExport("System.Collections", V(3, 3, 3), [], [Asset("", "System.Collections.dll")])
  }

  /** The package's edge to System.Collections resolves to the version of the second export. */
  lemma CollectionsResolved(exports: seq<LibraryExport>)
    requires |exports| == 2 && ExportName(exports[0]) == "Pack.Age"
    requires ExportName(exports[1]) == "System.Collections" && exports[1].library.identity.version == V(3, 3, 3)
    ensures Dependencies([CollectionsEdge(Default)], exports) == [Dependency("System.Collections", "3.3.3")]
  {
    SmallNumbers();
    assert FindVersion(exports[1..], "System.Collections") == Some(V(3, 3, 3));
    assert FindVersion(exports, "System.Collections") == Some(V(3, 3, 3));
  }

  lemma PackAgeRuntimeLibrary(exports: seq<LibraryExport>)
    requires exports == [RuntimePackAge(), RuntimeCollections()]
    ensures var lib := Builder.RuntimeLibraryOf(RuntimePackAge(), exports);
            && lib.name == "Pack.Age" && lib.libraryType == "package" && lib.serviceable
            && lib.hash == "sha512-Hash" && lib.version == "1.2.3"
            && lib.dependencies == [Dependency("System.Collections", "3.3.3")]
            && lib.assemblies == [RuntimeAssembly("lib/Pack.Age.dll")]
            && lib.resourceAssemblies == [ResourceAssembly("en-US/Pack.Age.resources.dll", "en-US")]
            && lib.runtimeTargets == [RuntimeTarget("win8-x64", [RuntimeAssembly("win8-x64/Pack.Age.dll")], ["win8-x64/Pack.Age.native.dll"])]
  {
    SmallNumbers();
    CollectionsResolved(exports);
    var e := RuntimePackAge();
    assert RuntimeTargetOf(e.runtimeTargets[0])
        == RuntimeTarget("win8-x64", [RuntimeAssembly("win8-x64/Pack.Age.dll")], ["win8-x64/Pack.Age.native.dll"]);
  }

  lemma CollectionsRuntimeLibrary(exports: seq<LibraryExport>)
    ensures var asm := Builder.RuntimeLibraryOf(RuntimeCollections(), exports);
            && asm.name == "System.Collections" && asm.libraryType == "referenceassembly"
            && asm.version == "3.3.3" && asm.hash == "" && asm.dependencies == []
            && asm.assemblies == [RuntimeAssembly("System.Collections.dll")]
  {
    SmallNumbers();
    CollectionsOutsideRoot();
  }

  lemma FillsRuntimeLibraryProperties()
    ensures var ctx := Builder.Build(NoOptions, [], [RuntimePackAge(), RuntimeCollections()], DefaultFramework, "");
            && |ctx.runtimeLibraries| == 2
            && var lib := ctx.runtimeLibraries[0];
            && lib.name == "Pack.Age" && lib.libraryType == "package" && lib.serviceable
            && lib.hash == "sha512-Hash" && lib.version == "1.2.3"
            && lib.dependencies == [Dependency("System.Collections", "3.3.3")]
            && lib.assemblies == [RuntimeAssembly("lib/Pack.Age.dll")]
            && lib.resourceAssemblies == [ResourceAssembly("en-US/Pack.Age.resources.dll", "en-US")]
            && lib.runtimeTargets == [RuntimeTarget("win8-x64", [RuntimeAssembly("win8-x64/Pack.Age.dll")], ["win8-x64/Pack.Age.native.dll"])]
            && var asm := ctx.runtimeLibraries[1];
            && asm.name == "System.Collections" && asm.libraryType == "referenceassembly"
            && asm.version == "3.3.3" && asm.hash == "" && asm.dependencies == []
            && asm.assemblies == [RuntimeAssembly("System.Collections.dll")]
  {
    var exports := [RuntimePackAge(), RuntimeCollections()];
    PackAgeRuntimeLibrary(exports);
    CollectionsRuntimeLibrary(exports);
    var ctx := Builder.Build(NoOptions, [], exports, DefaultFramework, "");
    assert ctx.runtimeLibraries[0] == Builder.RuntimeLibraryOf(RuntimePackAge(), exports);
    assert ctx.runtimeLibraries[1] == Builder.RuntimeLibraryOf(RuntimeCollections(), exports);
  }

  function CompilePackAge(): LibraryExport {
    PackageExport("Pack.Age", V(1, 2, 3), "Hash", true, [CollectionsEdge(Default)], [Asset("lib/Pack.Age.dll", "")], [], [], [])
  }

  function CompileCollections(): LibraryExport {
    ReferenceAssemblyExport("System.Collections", V(3, 3, 3), [Asset("", "System.Collections.dll")], [])
  }

  lemma PackAgeCompileLibrary(exports: seq<LibraryExport>)
    requires exports == [CompilePackAge(), CompileCollections()]
    ensures Builder.CompileLibraryOf(CompilePackAge(), exports)
         == CompileLibrary("package", "Pack.Age", "1.2.3", "sha512-Hash",
              ["lib/Pack.Age.dll"], [Dependency("System.Collections", "3.3.3")], true)
  {
    SmallNumbers();
    CollectionsResolved(exports);
  }

  lemma CollectionsCompileLibrary(exports: seq<LibraryExport>)
    ensures Builder.CompileLibraryOf(CompileCollections(), exports)
         == CompileLibrary("referenceassembly", "System.Collections", "3.3.3", "", ["System.Collections.dll"], [], false)
  {
    SmallNumbers();
    CollectionsOutsideRoot();
    assert AssetPaths(ReferenceAssembliesPath, ReferenceAssembly, [Asset("", "System.Collections.dll")]) == ["System.Collections.dll"];
  }

  lemma FillsCompileLibraryProperties()
    ensures var ctx := Builder.Build(NoOptions, [CompilePackAge(), CompileCollections()], [], DefaultFramework, "");
            && |ctx.compileLibraries| == 2
            && ctx.compileLibraries[0] == CompileLibrary("package", "Pack.Age", "1.2.3", "sha512-Hash",
                 ["lib/Pack.Age.dll"], [Dependency("System.Collections", "3.3.3")], true)
            && ctx.compileLibraries[1] == CompileLibrary("referenceassembly", "System.Collections", "3.3.3", "",
                 ["System.Collections.dll"], [], false)
  {
    var exports := [CompilePackAge(), CompileCollections()];
    PackAgeCompileLibrary(exports);
    CollectionsCompileLibrary(exports);
  }

  lemma ReferenceAssembliesPathRelativeToDefaultRoot()
    ensures var ctx := Builder.Build(NoOptions,
              [ReferenceAssemblyExport("System.Collections", V(3, 3, 3),
                 [Asset("", "reference/assemblies/sub/System.Collections.dll")], [])],
              [], DefaultFramework, "");
            ctx.compileLibraries[0].assemblies == ["sub/System.Collections.dll"]
  {
    var resolved := "reference/assemblies/sub/System.Collections.dll";
    assert EnsureTrailingSeparator(ReferenceAssembliesPath) == "reference/assemblies/";
    assert StartsWith(resolved, "reference/assemblies/");
  }

  lemma SkipsBuildDependencies()
    ensures var ctx := Builder.Build(NoOptions,
              [ PackageExport("Pack.Age", DefaultVersion, "Hash", false, [CollectionsEdge(Build)], [], [], [], []),
                ReferenceAssemblyExport("System.Collections", V(3, 3, 3), [], []) ],
              [], DefaultFramework, "");
            ctx.compileLibraries[0].name == "Pack.Age" && ctx.compileLibraries[0].dependencies == []
  {
  }
}

=== FILE: dependency_model_properties.dfy ===
/**
 * Properties of the dependency-context builder over all inputs: which
 * dependency edges survive and with which version, how library identities
 * carry over, and the independence of the compile-time and run-time views.
 */
module DependencyModelProperties {
  import opened Wrappers
  import opened Text
  import opened ProjectModel
  import opened DependencyModel

  /** Edge `e` is kept and recorded as `d`: not build-only, and its target is in the export set. */
  predicate Keeps(e: LibraryRange, exports: seq<LibraryExport>, d: Dependency) {
    && e.dependencyType != Build
    && FindVersion(exports, e.name).Some?
    && d == Dependency(e.name, VersionString(FindVersion(exports, e.name).value))
  }

  /** A recorded dependency is exactly a kept edge, rewritten to the resolved version. */
  lemma {:induction false} DependencyMembership(edges: seq<LibraryRange>, exports: seq<LibraryExport>, d: Dependency)
    ensures d in Dependencies(edges, exports) <==> exists k :: 0 <= k < |edges| && Keeps(edges[k], exports, d)
  {
    if |edges| > 0 {
      DependencyMembership(edges[1..], exports, d);
      assert d in Dependencies(edges, exports) <==> d in Dependencies(edges[1..], exports) || Keeps(edges[0], exports, d);
      if exists k :: 0 <= k < |edges| - 1 && Keeps(edges[1..][k], exports, d) {
        var k :| 0 <= k < |edges| - 1 && Keeps(edges[1..][k], exports, d);
        assert Keeps(edges[k + 1], exports, d);
      }
      if exists k :: 0 <= k < |edges| && Keeps(edges[k], exports, d) {
        var k :| 0 <= k < |edges| && Keeps(edges[k], exports, d);
        if k > 0 {
          assert Keeps(edges[1..][k - 1], exports, d);
        }
      }
    }
  }

  /** A dependency whose every edge is build-only never appears in the manifest. */
  lemma BuildEdgesNeverRecorded(edges: seq<LibraryRange>, exports: seq<LibraryExport>, name: string)
    requires forall k :: 0 <= k < |edges| && edges[k].name == name ==> edges[k].dependencyType == Build
    ensures forall d :: d in Dependencies(edges, exports) ==> d.name != name
  {
    forall d | d in Dependencies(edges, exports) ensures d.name != name {
      DependencyMembership(edges, exports, d);
    }
  }

  /** No dangling references: every recorded dependency names a library of the same export set, at its version. */
  lemma {:induction false} DependenciesResolve(edges: seq<LibraryRange>, exports: seq<LibraryExport>)
    ensures forall d :: d in Dependencies(edges, exports) ==>
              FindVersion(exports, d.name).Some? && d.version == VersionString(FindVersion(exports, d.name).value)
  {
    if |edges| > 0 {
      DependenciesResolve(edges[1..], exports);
    }
  }

  /** An edge whose target is absent from the export set is dropped. */
  lemma AbsentTargetsDropped(edges: seq<LibraryRange>, exports: seq<LibraryExport>, name: string)
    requires forall i :: 0 <= i < |exports| ==> ExportName(exports[i]) != name
    ensures forall d :: d in Dependencies(edges, exports) ==> d.name != name
  {
    DependenciesResolve(edges, exports);
  }

  function CompileNames(libs: seq<CompileLibrary>): (r: seq<string>)
    ensures |r| == |libs|
    ensures forall i :: 0 <= i < |libs| ==> r[i] == libs[i].name
  {
    seq(|libs|, i requires 0 <= i < |libs| => libs[i].name)
  }

  function RuntimeNames(libs: seq<RuntimeLibrary>): (r: seq<string>)
    ensures |r| == |libs|
    ensures forall i :: 0 <= i < |libs| ==> r[i] == libs[i].name
  {
    seq(|libs|, i requires 0 <= i < |libs| => libs[i].name)
  }

  function ExportNames(exports: seq<LibraryExport>): (r: seq<string>)
    ensures |r| == |exports|
    ensures forall i :: 0 <= i < |exports| ==> r[i] == ExportName(exports[i])
  {
    seq(|exports|, i requires 0 <= i < |exports| => ExportName(exports[i]))
  }

  predicate Distinct(names: seq<string>) {
    forall i, j :: 0 <= i < j < |names| ==> names[i] != names[j]
  }

  /**
   * The manifest lists the libraries of each export set by name, in input
   * order; so a library exported only at run time is never a compile library
   * and vice versa, and unique export names stay unique.
   */
  lemma LibraryNamesFollowExports(
    b: DependencyContextBuilder, options: CommonCompilerOptions,
    compilationExports: seq<LibraryExport>, runtimeExports: seq<LibraryExport>,
    target: Framework, runtime: string)
    ensures CompileNames(b.Build(options, compilationExports, runtimeExports, target, runtime).compileLibraries)
            == ExportNames(compilationExports)
    ensures RuntimeNames(b.Build(options, compilationExports, runtimeExports, target, runtime).runtimeLibraries)
            == ExportNames(runtimeExports)
  {
  }

  lemma UniqueNamesStayUnique(
    b: DependencyContextBuilder, options: CommonCompilerOptions,
    compilationExports: seq<LibraryExport>, runtimeExports: seq<LibraryExport>,
    target: Framework, runtime: string)
    requires Distinct(ExportNames(compilationExports)) && Distinct(ExportNames(runtimeExports))
    ensures Distinct(CompileNames(b.Build(options, compilationExports, runtimeExports, target, runtime).compileLibraries))
    ensures Distinct(RuntimeNames(b.Build(options, compilationExports, runtimeExports, target, runtime).runtimeLibraries))
  {
    LibraryNamesFollowExports(b, options, compilationExports, runtimeExports, target, runtime);
  }

  /** An export present only in the run-time set never appears among the compile libraries. */
  lemma RuntimeOnlyExportNotCompiled(
    b: DependencyContextBuilder, options: CommonCompilerOptions,
    compilationExports: seq<LibraryExport>, runtimeExports: seq<LibraryExport>,
    target: Framework, runtime: string, name: string)
    requires forall i :: 0 <= i < |compilationExports| ==> ExportName(compilationExports[i]) != name
    ensures forall l :: l in b.Build(options, compilationExports, runtimeExports, target, runtime).compileLibraries
              ==> l.name != name
  {
    var libs := b.Build(options, compilationExports, runtimeExports, target, runtime).compileLibraries;
    forall l | l in libs ensures l.name != name {
      var i :| 0 <= i < |libs| && libs[i] == l;
      assert l.name == ExportName(compilationExports[i]);
    }
  }

  /** The compile-time view does not depend on the run-time export set, and conversely. */
  lemma ViewsAreIndependent(
    b: DependencyContextBuilder, options: CommonCompilerOptions,
    compilationExports: seq<LibraryExport>, runtimeExports: seq<LibraryExport>,
    otherCompilationExports: seq<LibraryExport>, otherRuntimeExports: seq<LibraryExport>,
    target: Framework, runtime: string)
    ensures b.Build(options, compilationExports, runtimeExports, target, runtime).compileLibraries
         == b.Build(options, compilationExports, otherRuntimeExports, target, runtime).compileLibraries
    ensures b.Build(options, compilationExports, runtimeExports, target, runtime).runtimeLibraries
         == b.Build(options, otherCompilationExports, runtimeExports, target, runtime).runtimeLibraries
  {
  }

  /** Every manifest hash is empty or algorithm-prefixed, never raw hash text. */
  lemma HashesArePrefixed(
    b: DependencyContextBuilder, options: CommonCompilerOptions,
    compilationExports: seq<LibraryExport>, runtimeExports: seq<LibraryExport>,
    target: Framework, runtime: string)
    ensures forall l :: l in b.Build(options, compilationExports, runtimeExports, target, runtime).compileLibraries
              ==> l.hash == "" || StartsWith(l.hash, HashPrefix)
    ensures forall l :: l in b.Build(options, compilationExports, runtimeExports, target, runtime).runtimeLibraries
              ==> l.hash == "" || StartsWith(l.hash, HashPrefix)
  {
    var ctx := b.Build(options, compilationExports, runtimeExports, target, runtime);
    CompileHashesArePrefixed(b, compilationExports, ctx.compileLibraries);
    RuntimeHashesArePrefixed(b, runtimeExports, ctx.runtimeLibraries);
  }

  lemma CompileHashesArePrefixed(b: DependencyContextBuilder, exports: seq<LibraryExport>, libs: seq<CompileLibrary>)
    requires |libs| == |exports|
    requires forall i :: 0 <= i < |exports| ==> libs[i] == b.CompileLibraryOf(exports[i], exports)
    ensures forall l :: l in libs ==> l.hash == "" || StartsWith(l.hash, HashPrefix)
  {
    forall l | l in libs ensures l.hash == "" || StartsWith(l.hash, HashPrefix) {
      var i :| 0 <= i < |libs| && libs[i] == l;
      assert l.hash == HashString(exports[i].library.hash);
    }
  }

  lemma RuntimeHashesArePrefixed(b: DependencyContextBuilder, exports: seq<LibraryExport>, libs: seq<RuntimeLibrary>)
    requires |libs| == |exports|
    requires forall i :: 0 <= i < |exports| ==> libs[i] == b.RuntimeLibraryOf(exports[i], exports)
    ensures forall l :: l in libs ==> l.hash == "" || StartsWith(l.hash, HashPrefix)
  {
    forall l | l in libs ensures l.hash == "" || StartsWith(l.hash, HashPrefix) {
      var i :| 0 <= i < |libs| && libs[i] == l;
      assert l.hash == HashString(exports[i].library.hash);
    }
  }

  /**
   * Every library in either view is serviceable exactly when its export is a
   * package whose lock-file entry is serviceable.
   */
  lemma ServiceableFollowsPackage(
    b: DependencyContextBuilder, options: CommonCompilerOptions,
    compilationExports: seq<LibraryExport>, runtimeExports: seq<LibraryExport>,
    target: Framework, runtime: string)
    ensures var ctx := b.Build(options, compilationExports, runtimeExports, target, runtime);
            forall i :: 0 <= i < |compilationExports| ==>
              (ctx.compileLibraries[i].serviceable <==>
                 compilationExports[i].library.identity.kind == Package && compilationExports[i].library.serviceable)
    ensures var ctx := b.Build(options, compilationExports, runtimeExports, target, runtime);
            forall i :: 0 <= i < |runtimeExports| ==>
              (ctx.runtimeLibraries[i].serviceable <==>
                 runtimeExports[i].library.identity.kind == Package && runtimeExports[i].library.serviceable)
  {
  }
}

=== FILE: prepare_targets.dfy ===
/**
 * The decision logic of the build preparation targets: reading the
 * branch-info KEY=VALUE file, the default build configuration, and the
 * NuGet package cache expiry rule. Environment variables, files and the
 * clock enter as parameters; times are whole hours.
 */
module PrepareTargets {
  import opened Wrappers
  import opened Text

  // ---------------------------------------------------------------------
  // Init: the build configuration

  const DefaultConfiguration: string := "Debug"

  /** The CONFIGURATION variable when it is set and non-empty, otherwise "Debug". */
  function Configuration(configurationVariable: Option<string>): (r: string)
    ensures r != ""
    ensures configurationVariable.Some? && configurationVariable.value != "" ==> r == configurationVariable.value
    ensures configurationVariable.None? || configurationVariable.value == "" ==> r == DefaultConfiguration
  {
    match configurationVariable
    case Some(v) => if v == "" then DefaultConfiguration else v
    case None => DefaultConfiguration
  }

  /** Choosing the configuration is idempotent: a chosen configuration chooses itself. */
  lemma ConfigurationIdempotent(configurationVariable: Option<string>)
    ensures Configuration(Some(Configuration(configurationVariable))) == Configuration(configurationVariable)
  {
  }

  // ---------------------------------------------------------------------
  // int.Parse, as CheckPackageCache uses it

  const Int32Min: int := -0x8000_0000
  const Int32Max: int := 0x7FFF_FFFF

  /** The exceptions int.Parse throws: FormatException and OverflowException. */
  datatype NumberError = FormatError | OverflowError

  /** The white space int.Parse accepts around a number: U+0009 to U+000D and the space. */
  predicate IsNumberWhite(c: char) {
    '\t' <= c <= '\r' || c == ' '
  }

  function LeadingNumberWhite(s: string): (k: nat)
    ensures k <= |s|
    ensures k < |s| ==> !IsNumberWhite(s[k])
  {
    if |s| == 0 || !IsNumberWhite(s[0]) then 0 else 1 + LeadingNumberWhite(s[1..])
  }

  function TrailingNumberWhite(s: string): (k: nat)
    ensures k <= |s|
    ensures k < |s| ==> !IsNumberWhite(s[|s| - 1 - k])
  {
    if |s| == 0 || !IsNumberWhite(s[|s| - 1]) then 0 else 1 + TrailingNumberWhite(s[..|s| - 1])
  }

  /** The text between the white space int.Parse skips. */
  function NumberBody(s: string): string {
    var t := s[LeadingNumberWhite(s)..];
    t[..|t| - TrailingNumberWhite(t)]
  }

  /**
   * int.Parse with the invariant culture: optional surrounding white space,
   * an optional leading sign, at least one decimal digit, and a value that
   * fits in 32 bits.
   */
  function ParseInt32(s: string): (r: Result<int, NumberError>)
    ensures r.Success? ==> Int32Min <= r.value <= Int32Max
  {
    var body := NumberBody(s);
    var negative := |body| > 0 && body[0] == '-';
    var digits := if |body| > 0 && (body[0] == '-' || body[0] == '+') then body[1..] else body;
    match ParseNat(digits)
    case None => Failure(FormatError)
    case Some(n) =>
      var v: int := if negative then -(n as int) else n;
      if Int32Min <= v <= Int32Max then Success(v) else Failure(OverflowError)
  }

  /** Decimal text of an integer, with a leading '-' when negative. */
  function IntToString(n: int): string {
    if n < 0 then "-" + NatToString(-n) else NatToString(n)
  }

  /** Text that neither starts nor ends with white space is its own number body. */
  lemma NumberBodyUntrimmed(s: string)
    requires |s| > 0 && !IsNumberWhite(s[0]) && !IsNumberWhite(s[|s| - 1])
    ensures NumberBody(s) == s
  {
    assert LeadingNumberWhite(s) == 0;
    assert s[0..] == s;
    assert TrailingNumberWhite(s) == 0;
  }

  /** int.Parse reads back every 32-bit integer from its decimal text. */
  lemma {:induction false} ParseInt32RoundTrip(n: int)
    requires Int32Min <= n <= Int32Max
    ensures ParseInt32(IntToString(n)) == Success(n)
  {
    var s := IntToString(n);
    var m: nat := if n < 0 then -n else n;
    var d := NatToString(m);
    assert IsDigit(d[0]) && IsDigit(d[|d| - 1]);
    assert s[|s| - 1] == d[|d| - 1];
    NumberBodyUntrimmed(s);
    if n < 0 {
      assert s[1..] == d;
    } else {
      assert s == d;
    }
    NatRoundTrip(m);
  }

  /** int.Parse rejects with OverflowException the decimal text of every integer outside 32 bits. */
  lemma {:induction false} ParseInt32OutOfRange(n: int)
    requires n < Int32Min || Int32Max < n
    ensures ParseInt32(IntToString(n)) == Failure(OverflowError)
  {
    var s := IntToString(n);
    var m: nat := if n < 0 then -n else n;
    var d := NatToString(m);
    assert IsDigit(d[0]) && IsDigit(d[|d| - 1]);
    assert s[|s| - 1] == d[|d| - 1];
    NumberBodyUntrimmed(s);
    if n < 0 {
      assert s[1..] == d;
    } else {
      assert s == d;
    }
    NatRoundTrip(m);
  }

  /** int.Parse rejects with FormatException any text without a decimal digit, the empty text included. */
  lemma ParseInt32NoDigits(s: string)
    requires forall i :: 0 <= i < |s| ==> !IsDigit(s[i])
    ensures ParseInt32(s) == Failure(FormatError)
  {
    var a := LeadingNumberWhite(s);
    var t := s[a..];
    var body := NumberBody(s);
    assert body == t[..|t| - TrailingNumberWhite(t)];
    var k := if |body| > 0 && (body[0] == '-' || body[0] == '+') then 1 else 0;
    var digits := body[k..];
    if |digits| > 0 {
      assert digits[0] == s[a + k];
      assert !AllDigits(digits);
    }
  }

  // ---------------------------------------------------------------------
  // CheckPackageCache: the expiry rule

  /** Seven days, in hours. */
  const DefaultCacheExpirationHours: int := 7 * 24

  /** The NUGET_PACKAGES_CACHE_TIME_LIMIT setting when non-empty, parsed as hours; otherwise a week. */
  function CacheExpirationHours(setting: Option<string>): (r: Result<int, NumberError>)
    ensures setting.None? || setting.value == "" ==> r == Success(168)
    ensures setting.Some? && setting.value != "" ==> r == ParseInt32(setting.value)
  {
    match setting
    case None => Success(DefaultCacheExpirationHours)
    case Some(s) => if s == "" then Success(DefaultCacheExpirationHours) else ParseInt32(s)
  }

  /** The cache is cleared when its time stamp is unknown or lies more than the expiry before now. */
  function ShouldClearCache(cacheTime: Option<int>, expirationHours: int, now: int): (r: bool)
    ensures cacheTime.None? ==> r
    ensures cacheTime.Some? ==> (r <==> cacheTime.value + expirationHours < now)
  {
    cacheTime.None? || cacheTime.value + expirationHours < now
  }

  /** What one run of the cache check does: whether it clears the cache, and the time stamp it leaves. */
  datatype CacheCheck = CacheCheck(cleared: bool, cacheTime: Option<int>)

  /**
   * The cache check at time `now`. The expiry setting is parsed on every
   * build; only a CI build looks at the time stamp, and clearing the cache
   * records `now` as the new time stamp.
   */
  function CheckPackageCache(ciBuild: bool, expirationSetting: Option<string>, cacheTime: Option<int>, now: int)
    : (r: Result<CacheCheck, NumberError>)
    ensures r.Failure? <==> CacheExpirationHours(expirationSetting).Failure?
    ensures r.Success? && !ciBuild ==> r.value == CacheCheck(false, cacheTime)
    ensures r.Success? && ciBuild ==>
              r.value.cleared == ShouldClearCache(cacheTime, CacheExpirationHours(expirationSetting).value, now)
    ensures r.Success? && r.value.cleared ==> r.value.cacheTime == Some(now)
    ensures r.Success? && !r.value.cleared ==> r.value.cacheTime == cacheTime
  {
    match CacheExpirationHours(expirationSetting)
    case Failure(e) => Failure(e)
    case Success(hours) =>
      if !ciBuild then Success(CacheCheck(false, cacheTime))
      else if ShouldClearCache(cacheTime, hours, now) then Success(CacheCheck(true, Some(now)))
      else Success(CacheCheck(false, cacheTime))
  }

  /**
   * With a non-negative expiry the check settles: handed the time stamp a
   * run recorded, a second run at the same time keeps the cache. The file
   * must give that stamp back, as CacheTimeFromFile does and the reader as
   * written does not.
   */
  lemma CacheCheckSettles(ciBuild: bool, expirationSetting: Option<string>, cacheTime: Option<int>, now: int)
    requires CheckPackageCache(ciBuild, expirationSetting, cacheTime, now).Success?
    requires CacheExpirationHours(expirationSetting).value >= 0
    ensures var first := CheckPackageCache(ciBuild, expirationSetting, cacheTime, now).value;
            !CheckPackageCache(ciBuild, expirationSetting, first.cacheTime, now).value.cleared
  {
  }

  /** Expiry only moves forward: a cache cleared at some time is cleared at every later time. */
  lemma ClearingIsMonotone(cacheTime: Option<int>, expirationHours: int, now: int, later: int)
    requires now <= later
    requires ShouldClearCache(cacheTime, expirationHours, now)
    ensures ShouldClearCache(cacheTime, expirationHours, later)
  {
  }

  // ---------------------------------------------------------------------
  // CheckPackageCache: the time-stamp file

  /**
   * The text the cache check writes into its time-stamp file. The round-trip
   * date format is modelled by the decimal hour count. What matters here is
   * that ParseCacheTime reads it back and that, like the real round-trip
   * text (digits, '-', 'T', ':', '.' and 'Z'), it holds no letter 'O'.
   */
  function FormatCacheTime(t: nat): (r: string)
    ensures r != ""
  {
    NatToString(t)
  }

  /** Parsing time-stamp text with the round-trip format. */
  function ParseCacheTime(text: string): Option<nat> {
    ParseNat(text)
  }

  lemma CacheTimeRoundTrip(t: nat)
    ensures ParseCacheTime(FormatCacheTime(t)) == Some(t)
  {
    NatRoundTrip(t);
  }

  /**
   * The time stamp as the source reads it: the literal text "O" is parsed
   * with the file's text as the custom FORMAT. A format renders the letter
   * 'O' only from an 'O' of its own, so a text without one never matches,
   * the exception is caught and the time stays unknown. What a text holding
   * an 'O' gives (a quoted 'O' matches and yields today at midnight) is the
   * parameter `asFormat`.
   */
  function CacheTimeFromFileAsWritten(file: Option<string>, asFormat: Option<int>): (r: Option<int>)
    ensures file.None? || file.value == "" || 'O' !in file.value ==> r.None?
    ensures file.Some? && 'O' in file.value ==> r == asFormat
  {
    match file
    case None => None
    case Some(content) =>
      if content == "" || 'O' !in content then None else asFormat
  }

  /**
   * No stamp the check writes holds the letter 'O': the modelled stamp is
   * digits only, and so is the real round-trip text apart from '-', 'T',
   * ':', '.' and 'Z'.
   */
  lemma StampHasNoLetterO(t: nat)
    ensures 'O' !in FormatCacheTime(t)
  {
  }

  /** The time stamp as evidently intended: no file or an empty one is unknown, otherwise its text parsed. */
  function CacheTimeFromFile(file: Option<string>): (r: Option<int>)
    ensures file.None? || file.value == "" ==> r.None?
    ensures file.Some? && file.value != "" ==> r == ParseCacheTime(file.value)
  {
    match file
    case None => None
    case Some(content) =>
      if content == "" then None
      else match ParseCacheTime(content) case None => None case Some(t) => Some(t)
  }

  /**
   * As written, a CI build clears the cache whenever the file is missing,
   * empty or free of the letter 'O'.
   */
  lemma CacheClearedWithoutLetterOAsWritten(expirationSetting: Option<string>, file: Option<string>, asFormat: Option<int>, now: int)
    requires CacheExpirationHours(expirationSetting).Success?
    ensures file.None? || 'O' !in file.value ==>
              CheckPackageCache(true, expirationSetting, CacheTimeFromFileAsWritten(file, asFormat), now).value.cleared
  {
  }

  /** As written, the stamp a clearing run writes is never read back: the next CI build clears again. */
  lemma StampClearedAgainAsWritten(expirationSetting: Option<string>, stamp: nat, asFormat: Option<int>, now: int)
    requires CacheExpirationHours(expirationSetting).Success?
    ensures CacheTimeFromFileAsWritten(Some(FormatCacheTime(stamp)), asFormat).None?
    ensures CheckPackageCache(true, expirationSetting, CacheTimeFromFileAsWritten(Some(FormatCacheTime(stamp)), asFormat), now).value.cleared
  {
    StampHasNoLetterO(stamp);
  }

  /**
   * With the intended reading, the time stamp a clearing run writes keeps the
   * cache on the next run at the same time when the expiry is not negative,
   * and clears it once the expiry has passed.
   */
  lemma {:induction false} CacheKeptAfterClearing(expirationSetting: Option<string>, now: nat, later: int)
    requires CacheExpirationHours(expirationSetting).Success?
    ensures var hours := CacheExpirationHours(expirationSetting).value;
            var stamp := CacheTimeFromFile(Some(FormatCacheTime(now)));
            && stamp == Some(now as int)
            && (hours >= 0 ==> !CheckPackageCache(true, expirationSetting, stamp, now).value.cleared)
            && (CheckPackageCache(true, expirationSetting, stamp, later).value.cleared <==> now + hours < later)
  {
    CacheTimeRoundTrip(now);
  }

  // ---------------------------------------------------------------------
  // ReadBranchInfo

  /** The first character of s that is not white space, if any. */
  function FirstNonWhite(s: string): Option<char> {
    if |s| == 0 then None
    else if IsWhiteSpace(s[0]) then FirstNonWhite(s[1..])
    else Some(s[0])
  }

  /** A line that holds no entry: blank, or a comment whose first non-white character is '#'. */
  predicate IsSkipped(line: string) {
    FirstNonWhite(line).None? || FirstNonWhite(line).value == '#'
  }

  lemma {:induction false} FirstNonWhiteAfterLeadingWhite(s: string)
    ensures FirstNonWhite(s).None? <==> LeadingWhite(s) == |s|
    ensures FirstNonWhite(s).Some? ==> FirstNonWhite(s).value == s[LeadingWhite(s)]
  {
    if |s| > 0 && IsWhiteSpace(s[0]) {
      FirstNonWhiteAfterLeadingWhite(s[1..]);
    }
  }

  /**
   * The skip test reads as the source writes it: a line is skipped exactly
   * when its trimmed text starts with '#' or it is empty or white space only.
   */
  lemma SkippedIsTrimmedCommentOrBlank(line: string)
    ensures IsSkipped(line) <==> StartsWith(Trim(line), "#") || IsBlank(line)
  {
    FirstNonWhiteAfterLeadingWhite(line);
    LeadingWhiteIsWhite(line);
    var t := Trim(line);
    if t != "" {
      assert t[0] == line[LeadingWhite(line)];
    }
  }

  /** The key and value of an entry line: the text before the first '=' and everything after it. */
  function Entry(line: string): (r: Option<(string, string)>)
    ensures r.None? <==> IsSkipped(line) || '=' !in line
    ensures r.Some? ==> r.value.0 + "=" + r.value.1 == line && '=' !in r.value.0
  {
    if IsSkipped(line) then None else SplitAtFirst(line, '=')
  }

  /** A line that is neither skipped nor split: reading it fails, as `splat[1]` does not exist. */
  predicate IsMalformed(line: string) {
    !IsSkipped(line) && '=' !in line
  }

  predicate Defines(line: string, key: string) {
    Entry(line).Some? && Entry(line).value.0 == key
  }

  /** The value of the last line of `lines` that defines `key`, if any. */
  function LastValue(lines: seq<string>, key: string): Option<string> {
    if |lines| == 0 then None
    else if Defines(lines[|lines| - 1], key) then Some(Entry(lines[|lines| - 1]).value.1)
    else LastValue(lines[..|lines| - 1], key)
  }

  /** The dictionary the entry lines build, each entry overwriting its key. */
  function BranchInfo(lines: seq<string>): map<string, string> {
    if |lines| == 0 then map[]
    else
      var m := BranchInfo(lines[..|lines| - 1]);
      match Entry(lines[|lines| - 1])
      case None => m
      case Some((key, value)) => m[key := value]
  }

  /** The last entry for a key wins: the dictionary holds a key exactly when some line defines it last. */
  lemma {:induction false} BranchInfoLastWins(lines: seq<string>, key: string)
    ensures key in BranchInfo(lines) <==> LastValue(lines, key).Some?
    ensures key in BranchInfo(lines) ==> LastValue(lines, key) == Some(BranchInfo(lines)[key])
  {
    if |lines| > 0 && !Defines(lines[|lines| - 1], key) {
      BranchInfoLastWins(lines[..|lines| - 1], key);
    }
  }

  /** A line defining a key leaves a last value for it. */
  lemma {:induction false} DefinedHasLastValue(lines: seq<string>, key: string, i: int)
    requires 0 <= i < |lines| && Defines(lines[i], key)
    ensures LastValue(lines, key).Some?
  {
    var n := |lines| - 1;
    if i < n && !Defines(lines[n], key) {
      var init := lines[..n];
      assert init[i] == lines[i];
      DefinedHasLastValue(init, key, i);
    }
  }

  /** The dictionary holds exactly the keys that some entry line defines. */
  lemma BranchInfoKeys(lines: seq<string>, key: string)
    ensures key in BranchInfo(lines) <==> exists i :: 0 <= i < |lines| && Defines(lines[i], key)
  {
    BranchInfoLastWins(lines, key);
    if LastValue(lines, key).Some? {
      LastValueIsLast(lines, key);
    }
    if exists i :: 0 <= i < |lines| && Defines(lines[i], key) {
      var i :| 0 <= i < |lines| && Defines(lines[i], key);
      DefinedHasLastValue(lines, key, i);
    }
  }

  /** Line i defines key and no later line does. */
  predicate IsLastDefinition(lines: seq<string>, key: string, i: int) {
    0 <= i < |lines| && Defines(lines[i], key) && forall j :: i < j < |lines| ==> !Defines(lines[j], key)
  }

  /** A last definition stays last when a line that does not define the key is appended. */
  lemma LastDefinitionExtends(lines: seq<string>, key: string, i: int)
    requires |lines| > 0 && !Defines(lines[|lines| - 1], key)
    requires IsLastDefinition(lines[..|lines| - 1], key, i)
    ensures IsLastDefinition(lines, key, i) && lines[i] == lines[..|lines| - 1][i]
  {
    var n := |lines| - 1;
    var init := lines[..n];
    forall j | i < j < |lines| ensures !Defines(lines[j], key) {
      if j < n {
        assert lines[j] == init[j];
      }
    }
  }

  /** The last line defining a key carries the value LastValue reports. */
  lemma {:induction false} LastValueIsLast(lines: seq<string>, key: string)
    requires LastValue(lines, key).Some?
    ensures exists i :: IsLastDefinition(lines, key, i) && Entry(lines[i]).value.1 == LastValue(lines, key).value
  {
    var n := |lines| - 1;
    if Defines(lines[n], key) {
      assert IsLastDefinition(lines, key, n);
    } else {
      var init := lines[..n];
      LastValueIsLast(init, key);
      var i :| IsLastDefinition(init, key, i) && Entry(init[i]).value.1 == LastValue(init, key).value;
      LastDefinitionExtends(lines, key, i);
    }
  }

  /** The failure of ReadBranchInfo: the index of the first malformed line. */
  datatype BranchInfoError = MissingSeparator(line: nat)

  /**
   * Reads the branch-info lines into a dictionary. Comment and blank lines
   * are skipped; every other line is split at its first '=' and a later
   * entry for a key replaces an earlier one.
   */
  method ReadBranchInfo(lines: seq<string>) returns (r: Result<map<string, string>, BranchInfoError>)
    ensures r.Failure? <==> exists i :: 0 <= i < |lines| && IsMalformed(lines[i])
    ensures r.Failure? ==> r.error.line < |lines| && IsMalformed(lines[r.error.line])
                           && forall j :: 0 <= j < r.error.line ==> !IsMalformed(lines[j])
    ensures r.Success? ==> r.value == BranchInfo(lines)
    ensures r.Success? ==> forall key :: key in r.value <==> exists i :: 0 <= i < |lines| && Defines(lines[i], key)
    ensures r.Success? ==> forall key :: key in r.value ==> LastValue(lines, key) == Some(r.value[key])
  {
    var dict: map<string, string> := map[];
    var i := 0;
    while i < |lines|
      invariant 0 <= i <= |lines|
      invariant forall j :: 0 <= j < i ==> !IsMalformed(lines[j])
      invariant dict == BranchInfo(lines[..i])
    {
      var line := lines[i];
      assert lines[..i + 1][..i] == lines[..i];
      if !IsSkipped(line) {
        match SplitAtFirst(line, '=')
        case None =>
          return Failure(MissingSeparator(i));
        case Some((key, value)) =>
          dict := dict[key := value];
      }
      i := i + 1;
    }
    assert lines[..i] == lines;
    forall key ensures key in dict <==> exists j :: 0 <= j < |lines| && Defines(lines[j], key) {
      BranchInfoKeys(lines, key);
    }
    forall key | key in dict ensures LastValue(lines, key) == Some(dict[key]) {
      BranchInfoLastWins(lines, key);
    }
    return Success(dict);
  }

  lemma BranchInfoSnoc(lines: seq<string>, line: string)
    ensures BranchInfo(lines + [line])
         == match Entry(line) case None => BranchInfo(lines) case Some((k, v)) => BranchInfo(lines)[k := v]
  {
    assert (lines + [line])[..|lines|] == lines;
  }

  lemma SampleEntries()
    ensures Entry("# c").None? && Entry("").None? && Entry(" # d").None?
    ensures Entry("A=1") == Some(("A", "1")) && Entry("B=x=y") == Some(("B", "x=y")) && Entry("A=2") == Some(("A", "2"))
  {
    assert FirstNonWhite("# c") == Some('#');
    assert FirstNonWhite(" # d") == FirstNonWhite(" # d"[1..]) == Some('#');
    assert FirstNonWhite("A=1") == Some('A') && FirstNonWhite("B=x=y") == Some('B') && FirstNonWhite("A=2") == Some('A');
    assert "A=1" == "A" + ['='] + "1";
    assert "B=x=y" == "B" + ['='] + "x=y";
    assert "A=2" == "A" + ['='] + "2";
    SplitAtFirstJoin("A", '=', "1");
    SplitAtFirstJoin("B", '=', "x=y");
    SplitAtFirstJoin("A", '=', "2");
  }

  /** A sample branch-info file: comments and blank lines skipped, values split at the first '=', the last entry winning. */
  lemma SampleBranchInfo()
    ensures BranchInfo(["# c", "", "A=1", "B=x=y", " # d", "A=2"]) == map["A" := "2", "B" := "x=y"]
  {
    var l0, l1, l2, l3, l4, l5 := "# c", "", "A=1", "B=x=y", " # d", "A=2";
    SampleEntries();
    assert BranchInfo([]) == map[];
    BranchInfoSnoc([], l0);
    assert [] + [l0] == [l0];
    BranchInfoSnoc([l0], l1);
    assert [l0] + [l1] == [l0, l1];
    BranchInfoSnoc([l0, l1], l2);
    assert [l0, l1] + [l2] == [l0, l1, l2];
    assert BranchInfo([l0, l1, l2]) == map["A" := "1"];
    BranchInfoSnoc([l0, l1, l2], l3);
    assert [l0, l1, l2] + [l3] == [l0, l1, l2, l3];
    BranchInfoSnoc([l0, l1, l2, l3], l4);
    assert [l0, l1, l2, l3] + [l4] == [l0, l1, l2, l3, l4];
    assert BranchInfo([l0, l1, l2, l3, l4]) == map["A" := "1", "B" := "x=y"];
    BranchInfoSnoc([l0, l1, l2, l3, l4], l5);
    assert [l0, l1, l2, l3, l4] + [l5] == [l0, l1, l2, l3, l4, l5];
  }
}

=== FILE: project_model.dfy ===
/**
 * The builder's input shapes: library identities and descriptions, the
 * dependency edges between libraries, the assets a resolved library exports,
 * compiler options and the target framework. The NuGet version and framework
 * types are reduced to the parts the builder renders into the manifest.
 */
module ProjectModel {
  import opened Wrappers
  import opened Text

  /** The closed set of library descriptor kinds; Unresolved stands for every other kind. */
  datatype LibraryKind = Package | Project | ReferenceAssembly | Unresolved

  /** The kind of a dependency edge: a normal reference, or a build-time-only (tooling) one. */
  datatype DependencyType = Default | Build

  /** A NuGet version: major.minor.patch with an optional release label and build metadata. */
  datatype SemVer = SemVer(major: nat, minor: nat, patch: nat, release: string, metadata: string)

  /** A version range; the model keeps only its minimum version, which the builder never reads. */
  datatype VersionRange = AtLeast(minVersion: SemVer)

  /** A dependency edge: the dependent's name, the range it asks for, its kind and the edge kind. */
  datatype LibraryRange = LibraryRange(name: string, range: VersionRange, target: LibraryKind, dependencyType: DependencyType)

  datatype LibraryIdentity = LibraryIdentity(name: string, version: SemVer, kind: LibraryKind)

  /**
   * A resolved library. `hash` is the raw content hash ("" when there is none);
   * `serviceable` is the lock-file flag, meaningful for packages only.
   */
  datatype LibraryDescription = LibraryDescription(
    identity: LibraryIdentity,
    hash: string,
    serviceable: bool,
    dependencies: seq<LibraryRange>)

  /** A file of a library: its logical name, its path relative to the library root, its resolved path. */
  datatype LibraryAsset = LibraryAsset(name: string, relativePath: string, resolvedPath: string)

  datatype LibraryResourceAssembly = LibraryResourceAssembly(asset: LibraryAsset, locale: string)

  /** The managed and native assets a library adds for one secondary runtime identifier. */
  datatype LibraryRuntimeTarget = LibraryRuntimeTarget(
    runtime: string,
    runtimeAssemblies: seq<LibraryAsset>,
    nativeLibraries: seq<LibraryAsset>)

  /** A resolved library with its classified asset lists for one target. */
  datatype LibraryExport = LibraryExport(
    library: LibraryDescription,
    compilationAssemblies: seq<LibraryAsset>,
    runtimeAssemblies: seq<LibraryAsset>,
    runtimeTargets: seq<LibraryRuntimeTarget>,
    resourceAssemblies: seq<LibraryResourceAssembly>)

  function ExportName(e: LibraryExport): string {
    e.library.identity.name
  }

  /** The compiler switches of a project; None stands for an unset (null) value. */
  datatype CommonCompilerOptions = CommonCompilerOptions(
    defines: seq<string>,
    languageVersion: Option<string>,
    platform: Option<string>,
    allowUnsafe: Option<bool>,
    warningsAsErrors: Option<bool>,
    optimize: Option<bool>,
    keyFile: Option<string>,
    delaySign: Option<bool>,
    publicSign: Option<bool>,
    emitEntryPoint: Option<bool>,
    generateXmlDocumentation: Option<bool>)

  /** A framework version; like System.Version, a revision exists only beside a build number. */
  datatype FrameworkVersion = FrameworkVersion(major: nat, minor: nat, build: Option<nat>, revision: Option<nat>)

  predicate ValidFrameworkVersion(v: FrameworkVersion) {
    v.revision.Some? ==> v.build.Some?
  }

  datatype Framework = Framework(identifier: string, version: FrameworkVersion)

  /** The normalized text of a version: "1.2.3", "1.2.3-dev", "1.2.3-dev+meta". */
  function VersionString(v: SemVer): (r: string)
    ensures |r| >= 5
    ensures v.release == "" && v.metadata == "" <==> '-' !in r && '+' !in r
  {
    NatToStringHasNoPunctuation(v.major);
    NatToStringHasNoPunctuation(v.minor);
    NatToStringHasNoPunctuation(v.patch);
    NatToString(v.major) + "." + NatToString(v.minor) + "." + NatToString(v.patch)
    + (if v.release == "" then "" else "-" + v.release)
    + (if v.metadata == "" then "" else "+" + v.metadata)
  }

  /** Reads three dot-separated decimal components. */
  function ParseVersionCore(core: string): Option<(nat, nat, nat)> {
    var parts := SplitAll(core, '.');
    if |parts| != 3 then None
    else match (ParseNat(parts[0]), ParseNat(parts[1]), ParseNat(parts[2]))
      case (Some(a), Some(b), Some(c)) => Some((a, b, c))
      case _ => None
  }

  /** The inverse of VersionString: metadata after the first '+', release after the first '-'. */
  function ParseVersion(s: string): Option<SemVer> {
    var (main, metadata) := match SplitAtFirst(s, '+') case None => (s, "") case Some(p) => p;
    var (core, release) := match SplitAtFirst(main, '-') case None => (main, "") case Some(p) => p;
    match ParseVersionCore(core)
    case None => None
    case Some((a, b, c)) => Some(SemVer(a, b, c, release, metadata))
  }

  /** The version part of a framework name: "1.2", "4.5.1", "4.5.1.7". */
  function DisplayVersion(v: FrameworkVersion): (r: string)
    ensures ',' !in r && '.' in r
  {
    NatToStringHasNoPunctuation(v.major);
    NatToStringHasNoPunctuation(v.minor);
    NatToStringHasNoPunctuation(match v.build case None => 0 case Some(n) => n);
    NatToStringHasNoPunctuation(match v.revision case None => 0 case Some(n) => n);
    NatToString(v.major) + "." + NatToString(v.minor)
    + (match v.build case None => "" case Some(n) => "." + NatToString(n))
    + (match v.revision case None => "" case Some(n) => "." + NatToString(n))
  }

  /** The manifest's target-framework string, e.g. "SomeFramework,Version=v1.2". */
  function FrameworkName(f: Framework): (r: string)
    ensures StartsWith(r, f.identifier)
    ensures LastIndexOf(r, ',') == Some(|f.identifier|)
  {
    var d := DisplayVersion(f.version);
    TagSplit(f.identifier, d);
    CommaJoin(f.identifier, VersionTag + d);
    f.identifier + ",Version=v" + d
  }

  /** What follows the comma in a target-framework string, ahead of the version. */
  const VersionTag := "Version=v"

  lemma TagSplit(a: string, b: string)
    ensures a + ",Version=v" + b == a + [','] + (VersionTag + b)
  {
    assert ",Version=v" == [','] + VersionTag;
  }

  /** The identifier is everything before the last ',' when what follows has none. */
  lemma CommaJoin(identifier: string, tail: string)
    requires ',' !in tail
    ensures var s := identifier + [','] + tail;
      StartsWith(s, identifier) && s[..|identifier|] == identifier && s[|identifier| + 1..] == tail
    ensures LastIndexOf(identifier + [','] + tail, ',') == Some(|identifier|)
  {
    var s := identifier + [','] + tail;
    assert s[..|identifier|] == identifier;
    assert s[|identifier| + 1..] == tail;
    LastIndexOfJoin(identifier, ',', tail);
  }

  function ParseDisplayVersion(s: string): Option<FrameworkVersion> {
    var parts := SplitAll(s, '.');
    if |parts| < 2 || |parts| > 4 then None
    else
      var numbers := seq(|parts|, i requires 0 <= i < |parts| => ParseNat(parts[i]));
      if exists i :: 0 <= i < |parts| && numbers[i].None? then None
      else
        var build := if |parts| >= 3 then Some(numbers[2].value) else None;
        var revision := if |parts| == 4 then Some(numbers[3].value) else None;
        Some(FrameworkVersion(numbers[0].value, numbers[1].value, build, revision))
  }

  /** The inverse of FrameworkName: the identifier is everything before the last ','. */
  function ParseFrameworkName(s: string): Option<Framework> {
    match LastIndexOf(s, ',')
    case None => None
    case Some(i) =>
      var rest := s[i + 1..];
      if !StartsWith(rest, VersionTag) then None
      else match ParseDisplayVersion(rest[9..])
        case None => None
        case Some(v) => Some(Framework(s[..i], v))
  }
  /** Three dot-free pieces joined by '.' split back into those pieces. */
  lemma SplitThree(x: string, y: string, z: string)
    requires '.' !in x && '.' !in y && '.' !in z
    ensures SplitAll(x + "." + y + "." + z, '.') == [x, y, z]
  {
    var yz := y + ['.'] + z;
    assert x + "." + y + "." + z == x + ['.'] + yz;
    SplitAllJoin(x, '.', yz);
    SplitAllJoin(y, '.', z);
    SplitAllSingle(z, '.');
  }

  lemma SplitFour(w: string, x: string, y: string, z: string)
    requires '.' !in w && '.' !in x && '.' !in y && '.' !in z
    ensures SplitAll(w + "." + x + "." + y + "." + z, '.') == [w, x, y, z]
  {
    SplitAllAppend(w + "." + x + "." + y, '.', z);
    SplitThree(w, x, y);
  }

  lemma ParseVersionCoreRoundTrip(a: nat, b: nat, c: nat)
    ensures ParseVersionCore(NatToString(a) + "." + NatToString(b) + "." + NatToString(c)) == Some((a, b, c))
  {
    NatToStringHasNoPunctuation(a);
    NatToStringHasNoPunctuation(b);
    NatToStringHasNoPunctuation(c);
    SplitThree(NatToString(a), NatToString(b), NatToString(c));
    NatRoundTrip(a);
    NatRoundTrip(b);
    NatRoundTrip(c);
  }

  /**
   * Rendering a version loses nothing: the text the manifest records parses
   * back to the same version, so distinct versions are recorded distinctly.
   * A release label holds no '+', as in NuGet's version grammar.
   */
  lemma {:induction false} VersionRoundTrip(v: SemVer)
    requires '+' !in v.release
    ensures ParseVersion(VersionString(v)) == Some(v)
  {
    var A, B, C := NatToString(v.major), NatToString(v.minor), NatToString(v.patch);
    NatToStringHasNoPunctuation(v.major);
    NatToStringHasNoPunctuation(v.minor);
    NatToStringHasNoPunctuation(v.patch);
    var core := A + "." + B + "." + C;
    assert '+' !in core && '-' !in core;
    ParseVersionCoreRoundTrip(v.major, v.minor, v.patch);
    ParseVersionOf(core, v.release, v.metadata, v.major, v.minor, v.patch);
  }

  /** A core without '+' or '-', then the optional release and metadata, split back into the three. */
  lemma ParseVersionOf(core: string, release: string, metadata: string, a: nat, b: nat, c: nat)
    requires '+' !in core && '-' !in core && '+' !in release
    requires ParseVersionCore(core) == Some((a, b, c))
    ensures ParseVersion(core + (if release == "" then "" else "-" + release)
                              + (if metadata == "" then "" else "+" + metadata))
         == Some(SemVer(a, b, c, release, metadata))
  {
    var R := if release == "" then "" else "-" + release;
    var M := if metadata == "" then "" else "+" + metadata;
    var main := core + R;
    assert '+' !in main;
    var s := main + M;
    if metadata == "" {
      assert s == main;
      assert SplitAtFirst(s, '+').None?;
    } else {
      assert s == main + ['+'] + metadata;
      SplitAtFirstJoin(main, '+', metadata);
    }
    if release == "" {
      assert main == core;
      assert SplitAtFirst(main, '-').None?;
    } else {
      assert main == core + ['-'] + release;
      SplitAtFirstJoin(core, '-', release);
    }
  }

  lemma VersionStringInjective(v: SemVer, w: SemVer)
    requires '+' !in v.release && '+' !in w.release
    requires VersionString(v) == VersionString(w)
    ensures v == w
  {
    VersionRoundTrip(v);
    VersionRoundTrip(w);
  }

  /** Parsing a display version reads each dot-separated component back. */
  lemma ParseDisplayVersionOf(s: string, parts: seq<string>, ns: seq<nat>)
    requires 2 <= |ns| <= 4
    requires SplitAll(s, '.') == parts && |parts| == |ns|
    requires forall i :: 0 <= i < |ns| ==> ParseNat(parts[i]) == Some(ns[i])
    ensures ParseDisplayVersion(s) == Some(FrameworkVersion(ns[0], ns[1],
      if |ns| >= 3 then Some(ns[2]) else None, if |ns| == 4 then Some(ns[3]) else None))
  {
  }

  /** The three cases of ParseDisplayVersionOf, over pieces already known to parse. */
  lemma ParseDisplayVersion2(s: string, A: string, B: string, a: nat, b: nat)
    requires SplitAll(s, '.') == [A, B]
    requires ParseNat(A) == Some(a) && ParseNat(B) == Some(b)
    ensures ParseDisplayVersion(s) == Some(FrameworkVersion(a, b, None, None))
  {
    ParseDisplayVersionOf(s, [A, B], [a, b]);
  }

  lemma ParseDisplayVersion3(s: string, A: string, B: string, N: string, a: nat, b: nat, n: nat)
    requires SplitAll(s, '.') == [A, B, N]
    requires ParseNat(A) == Some(a) && ParseNat(B) == Some(b) && ParseNat(N) == Some(n)
    ensures ParseDisplayVersion(s) == Some(FrameworkVersion(a, b, Some(n), None))
  {
    ParseDisplayVersionOf(s, [A, B, N], [a, b, n]);
  }

  lemma ParseDisplayVersion4(s: string, A: string, B: string, N: string, Q: string, a: nat, b: nat, n: nat, q: nat)
    requires SplitAll(s, '.') == [A, B, N, Q]
    requires ParseNat(A) == Some(a) && ParseNat(B) == Some(b) && ParseNat(N) == Some(n) && ParseNat(Q) == Some(q)
    ensures ParseDisplayVersion(s) == Some(FrameworkVersion(a, b, Some(n), Some(q)))
  {
    ParseDisplayVersionOf(s, [A, B, N, Q], [a, b, n, q]);
  }

  lemma DisplayVersionRoundTrip2(v: FrameworkVersion)
    requires v.build.None? && v.revision.None?
    ensures ParseDisplayVersion(DisplayVersion(v)) == Some(v)
  {
    var A, B := NatToString(v.major), NatToString(v.minor);
    NatToStringHasNoPunctuation(v.major);
    NatToStringHasNoPunctuation(v.minor);
    NatRoundTrip(v.major);
    NatRoundTrip(v.minor);
    var s := DisplayVersion(v);
    assert s == A + ['.'] + B;
    SplitAllJoin(A, '.', B);
    SplitAllSingle(B, '.');
    ParseDisplayVersion2(s, A, B, v.major, v.minor);
  }

  lemma DisplayVersionRoundTrip3(v: FrameworkVersion)
    requires v.build.Some? && v.revision.None?
    ensures ParseDisplayVersion(DisplayVersion(v)) == Some(v)
  {
    var A, B, N := NatToString(v.major), NatToString(v.minor), NatToString(v.build.value);
    NatToStringHasNoPunctuation(v.major);
    NatToStringHasNoPunctuation(v.minor);
    NatToStringHasNoPunctuation(v.build.value);
    NatRoundTrip(v.major);
    NatRoundTrip(v.minor);
    NatRoundTrip(v.build.value);
    var s := DisplayVersion(v);
    assert s == A + "." + B + "." + N;
    SplitThree(A, B, N);
    ParseDisplayVersion3(s, A, B, N, v.major, v.minor, v.build.value);
  }

  lemma DisplayVersionRoundTrip4(v: FrameworkVersion)
    requires v.build.Some? && v.revision.Some?
    ensures ParseDisplayVersion(DisplayVersion(v)) == Some(v)
  {
    var A, B := NatToString(v.major), NatToString(v.minor);
    var N, Q := NatToString(v.build.value), NatToString(v.revision.value);
    NatToStringHasNoPunctuation(v.major);
    NatToStringHasNoPunctuation(v.minor);
    NatToStringHasNoPunctuation(v.build.value);
    NatToStringHasNoPunctuation(v.revision.value);
    NatRoundTrip(v.major);
    NatRoundTrip(v.minor);
    NatRoundTrip(v.build.value);
    NatRoundTrip(v.revision.value);
    var s := DisplayVersion(v);
    assert s == A + "." + B + "." + N + "." + Q;
    SplitFour(A, B, N, Q);
    ParseDisplayVersion4(s, A, B, N, Q, v.major, v.minor, v.build.value, v.revision.value);
  }

  lemma DisplayVersionRoundTrip(v: FrameworkVersion)
    requires ValidFrameworkVersion(v)
    ensures ',' !in DisplayVersion(v)
    ensures ParseDisplayVersion(DisplayVersion(v)) == Some(v)
  {
    NatToStringHasNoPunctuation(v.major);
    NatToStringHasNoPunctuation(v.minor);
    if v.build.Some? { NatToStringHasNoPunctuation(v.build.value); }
    if v.revision.Some? { NatToStringHasNoPunctuation(v.revision.value); }
    if v.build.None? {
      DisplayVersionRoundTrip2(v);
    } else if v.revision.None? {
      DisplayVersionRoundTrip3(v);
    } else {
      DisplayVersionRoundTrip4(v);
    }
  }

  /**
   * The target-framework string determines the framework: it parses back to
   * the identifier and version it was rendered from, whatever the identifier.
   */
  lemma {:induction false} FrameworkNameRoundTrip(f: Framework)
    requires ValidFrameworkVersion(f.version)
    ensures ParseFrameworkName(FrameworkName(f)) == Some(f)
  {
    DisplayVersionRoundTrip(f.version);
    ParseFrameworkNameOf(f.identifier, DisplayVersion(f.version), f.version);
  }

  /** An identifier, ",Version=v" and a comma-free display version parse back into their parts. */
  lemma ParseFrameworkNameOf(identifier: string, d: string, v: FrameworkVersion)
    requires ',' !in d && ParseDisplayVersion(d) == Some(v)
    ensures ParseFrameworkName(identifier + ",Version=v" + d) == Some(Framework(identifier, v))
  {
    var tail := VersionTag + d;
    TagSplit(identifier, d);
    CommaJoin(identifier, tail);
    assert tail[9..] == d;
  }
}

=== FILE: text.dfy ===
/**
 * String helpers shared by the dependency-context builder and the build
 * scripts: decimal rendering and parsing of naturals, the whitespace test of
 * the .NET runtime, Trim, first-separator splitting and file names.
 * Strings are `seq<char>` and paths use the single separator '/'.
 */
module Text {
  import opened Wrappers

  /** The path separator of the model. */
  const Separator: char := '/'

  predicate IsDigit(c: char) {
    '0' <= c <= '9'
  }

  predicate AllDigits(s: string) {
    forall i :: 0 <= i < |s| ==> IsDigit(s[i])
  }

  function DigitChar(d: nat): (c: char)
    requires d < 10
    ensures IsDigit(c)
  {
    ['0','1','2','3','4','5','6','7','8','9'][d]
  }

  function DigitValue(c: char): (d: nat)
    requires IsDigit(c)
    ensures d < 10
  {
    (c as int - '0' as int) as nat
  }

  lemma DigitRoundTrip(d: nat)
    requires d < 10
    ensures DigitValue(DigitChar(d)) == d
  {
  }

  /** Decimal rendering of a natural number, most significant digit first, no leading zeros. */
  function NatToString(n: nat): (r: string)
    ensures |r| >= 1 && AllDigits(r)
    ensures r[0] == '0' ==> n == 0 && r == "0"
    decreases n
  {
    if n < 10 then [DigitChar(n)] else NatToString(n / 10) + [DigitChar(n % 10)]
  }

  /** The value of a string of decimal digits (the empty string is worth 0). */
  function DigitsValue(s: string): nat
    requires AllDigits(s)
  {
    if |s| == 0 then 0 else DigitsValue(s[..|s| - 1]) * 10 + DigitValue(s[|s| - 1])
  }

  /** Parses a non-empty run of decimal digits; anything else is rejected. */
  function ParseNat(s: string): (r: Option<nat>)
    ensures r.Some? <==> |s| >= 1 && AllDigits(s)
  {
    if |s| >= 1 && AllDigits(s) then Some(DigitsValue(s)) else None
  }

  lemma {:induction false} DigitsValueOfNatToString(n: nat)
    ensures DigitsValue(NatToString(n)) == n
    decreases n
  {
    if n < 10 {
      DigitRoundTrip(n);
    } else {
      var s := NatToString(n / 10);
      var t := s + [DigitChar(n % 10)];
      assert t[..|t| - 1] == s;
      DigitsValueOfNatToString(n / 10);
      DigitRoundTrip(n % 10);
    }
  }

  /** Parsing undoes rendering: decimal rendering is injective and ParseNat is its inverse. */
  lemma NatRoundTrip(n: nat)
    ensures ParseNat(NatToString(n)) == Some(n)
  {
    DigitsValueOfNatToString(n);
  }

  lemma NatToStringInjective(m: nat, n: nat)
    requires NatToString(m) == NatToString(n)
    ensures m == n
  {
    NatRoundTrip(m);
    NatRoundTrip(n);
  }

  predicate StartsWith(s: string, prefix: string) {
    |prefix| <= |s| && s[..|prefix|] == prefix
  }

  predicate EndsWith(s: string, suffix: string) {
    |suffix| <= |s| && s[|s| - |suffix|..] == suffix
  }

  /**
   * The characters for which .NET's char.IsWhiteSpace holds: the Unicode space,
   * line and paragraph separators, the controls U+0009 to U+000D and U+0085.
   */
  predicate IsWhiteSpace(c: char)
    ensures c == ' ' || c == '\t' || c == '\n' || c == '\r' ==> IsWhiteSpace(c)
    ensures IsDigit(c) || c == '#' || c == '=' || c == '-' || c == '+' ==> !IsWhiteSpace(c)
  {
    || '\U{0009}' <= c <= '\U{000D}'
    || c == ' ' || c == '\U{0085}' || c == '\U{00A0}' || c == '\U{1680}'
    || '\U{2000}' <= c <= '\U{200A}'
    || c == '\U{2028}' || c == '\U{2029}' || c == '\U{202F}' || c == '\U{205F}' || c == '\U{3000}'
  }

  /** string.IsNullOrWhiteSpace on a non-null string. */
  predicate IsBlank(s: string)
    ensures IsBlank(s) <==> LeadingWhite(s) == |s|
  {
    LeadingWhiteIsWhite(s);
    forall i :: 0 <= i < |s| ==> IsWhiteSpace(s[i])
  }

  /** Number of leading white-space characters of s. */
  function LeadingWhite(s: string): (k: nat)
    ensures k <= |s|
    ensures k < |s| ==> !IsWhiteSpace(s[k])
  {
    if |s| == 0 || !IsWhiteSpace(s[0]) then 0 else 1 + LeadingWhite(s[1..])
  }

  lemma {:induction false} LeadingWhiteIsWhite(s: string)
    ensures forall i :: 0 <= i < LeadingWhite(s) ==> IsWhiteSpace(s[i])
  {
    if |s| > 0 && IsWhiteSpace(s[0]) {
      LeadingWhiteIsWhite(s[1..]);
      forall i | 1 <= i < LeadingWhite(s) ensures IsWhiteSpace(s[i]) {
        assert s[i] == s[1..][i - 1];
      }
    }
  }

  /** Number of trailing white-space characters of s. */
  function TrailingWhite(s: string): (k: nat)
    ensures k <= |s|
    ensures k < |s| ==> !IsWhiteSpace(s[|s| - 1 - k])
    ensures |s| > 0 && !IsWhiteSpace(s[0]) ==> k < |s|
  {
    if |s| == 0 || !IsWhiteSpace(s[|s| - 1]) then 0 else 1 + TrailingWhite(s[..|s| - 1])
  }

  lemma {:induction false} TrailingWhiteIsWhite(s: string)
    ensures IsBlank(s[|s| - TrailingWhite(s)..])
  {
    var k := TrailingWhite(s);
    if |s| > 0 && IsWhiteSpace(s[|s| - 1]) {
      var init := s[..|s| - 1];
      TrailingWhiteIsWhite(init);
      var tail, tailInit := s[|s| - k..], init[|init| - (k - 1)..];
      assert tail == tailInit + [s[|s| - 1]];
      forall i | 0 <= i < k ensures IsWhiteSpace(tail[i]) {
        if i < k - 1 {
          assert tail[i] == tailInit[i];
        }
      }
    }
  }

  /**
   * string.Trim(): s without its leading and trailing white space. The result
   * sits in s right after the leading white space and only white space follows it.
   */
  function Trim(s: string): (r: string)
    ensures r == "" <==> IsBlank(s)
    ensures r != "" ==> !IsWhiteSpace(r[0]) && !IsWhiteSpace(r[|r| - 1])
    ensures StartsWith(s[LeadingWhite(s)..], r)
    ensures LeadingWhite(s) + |r| <= |s| && IsBlank(s[LeadingWhite(s) + |r|..])
  {
    var a := LeadingWhite(s);
    LeadingWhiteIsWhite(s);
    if a == |s| then
      ""
    else
      var t := s[a..];
      var b := TrailingWhite(t);
      TrailingWhiteIsWhite(t);
      assert t[0] == s[a];
      assert s[a + (|t| - b)..] == t[|t| - b..];
      t[..|t| - b]
  }

  /** The index of the first occurrence of c in s, if any. */
  function IndexOf(s: string, c: char): (r: Option<nat>)
    ensures r.None? <==> c !in s
    ensures r.Some? ==> r.value < |s| && s[r.value] == c && c !in s[..r.value]
  {
    if |s| == 0 then None
    else if s[0] == c then Some(0)
    else match IndexOf(s[1..], c)
      case None => None
      case Some(i) =>
        assert s[..i + 1] == [s[0]] + s[1..][..i];
        Some(i + 1)
  }

  /** The index of the last occurrence of c in s, if any. */
  function LastIndexOf(s: string, c: char): (r: Option<nat>)
    ensures r.None? <==> c !in s
    ensures r.Some? ==> r.value < |s| && s[r.value] == c && c !in s[r.value + 1..]
  {
    if |s| == 0 then None
    else if s[|s| - 1] == c then Some(|s| - 1)
    else match LastIndexOf(s[..|s| - 1], c)
      case None => None
      case Some(i) =>
        assert s[i + 1..] == s[..|s| - 1][i + 1..] + [s[|s| - 1]];
        Some(i)
  }

  /**
   * s.Split(new[] { c }, 2): the text before the first c and everything after
   * it (further occurrences of c included); None when c does not occur.
   */
  function SplitAtFirst(s: string, c: char): (r: Option<(string, string)>)
    ensures r.None? <==> c !in s
    ensures r.Some? ==> r.value.0 + [c] + r.value.1 == s && c !in r.value.0
  {
    match IndexOf(s, c)
    case None => None
    case Some(i) =>
      assert s[..i] + [c] + s[i + 1..] == s;
      Some((s[..i], s[i + 1..]))
  }

  /** Splitting undoes joining at a separator the left part does not contain. */
  lemma {:induction false} SplitAtFirstJoin(a: string, c: char, b: string)
    requires c !in a
    ensures SplitAtFirst(a + [c] + b, c) == Some((a, b))
  {
    var s := a + [c] + b;
    var i := IndexOf(s, c).value;
    assert s[|a|] == c;
    assert s[..|a|] == a;
    assert s[|a| + 1..] == b;
  }

  /** Path.GetFileName: the text after the last separator. */
  function FileName(path: string): (r: string)
    ensures Separator !in r
    ensures EndsWith(path, r)
    ensures Separator !in path ==> r == path
    ensures Separator in path ==> |r| < |path| && path[|path| - |r| - 1] == Separator
  {
    match LastIndexOf(path, Separator)
    case None => path
    case Some(i) => path[i + 1..]
  }

  /** The directory text with exactly one separator at its end. */
  function EnsureTrailingSeparator(dir: string): (r: string)
    ensures EndsWith(r, [Separator])
    ensures StartsWith(r, dir)
    ensures |r| <= |dir| + 1
  {
    if EndsWith(dir, [Separator]) then dir else dir + [Separator]
  }
  /** Searching from the end finds a separator that the tail does not contain. */
  lemma {:induction false} LastIndexOfJoin(a: string, c: char, b: string)
    requires c !in b
    ensures LastIndexOf(a + [c] + b, c) == Some(|a|)
  {
    var s := a + [c] + b;
    var i := LastIndexOf(s, c).value;
    assert s[|a|] == c;
    assert s[|a| + 1..] == b;
  }

  /** s.Split(c): the pieces between occurrences of c, in order. */
  function SplitAll(s: string, c: char): (r: seq<string>)
    ensures |r| >= 1
    ensures forall i :: 0 <= i < |r| ==> c !in r[i]
    decreases |s|
  {
    match SplitAtFirst(s, c)
    case None => [s]
    case Some((a, b)) => [a] + SplitAll(b, c)
  }

  lemma SplitAllJoin(a: string, c: char, b: string)
    requires c !in a
    ensures SplitAll(a + [c] + b, c) == [a] + SplitAll(b, c)
  {
    SplitAtFirstJoin(a, c, b);
  }
  /** A decimal rendering holds none of the punctuation that version and framework strings use. */
  lemma NatToStringHasNoPunctuation(n: nat)
    ensures '.' !in NatToString(n) && '-' !in NatToString(n)
    ensures '+' !in NatToString(n) && ',' !in NatToString(n)
  {
    var s := NatToString(n);
    forall i | 0 <= i < |s| ensures s[i] != '.' && s[i] != '-' && s[i] != '+' && s[i] != ',' {
      assert IsDigit(s[i]);
    }
  }

  lemma SplitAllSingle(s: string, c: char)
    requires c !in s
    ensures SplitAll(s, c) == [s]
  {
  }
  /** Splitting text with a separator-free last piece appended yields that piece last. */
  lemma {:induction false} SplitAllAppend(a: string, c: char, b: string)
    requires c !in b
    ensures SplitAll(a + [c] + b, c) == SplitAll(a, c) + [b]
    decreases |a|
  {
    match SplitAtFirst(a, c)
    case None =>
      SplitAllJoin(a, c, b);
      SplitAllSingle(b, c);
    case Some((a1, a2)) =>
      assert a + [c] + b == a1 + [c] + (a2 + [c] + b);
      SplitAllJoin(a1, c, a2 + [c] + b);
      SplitAllAppend(a2, c, b);
  }
}

=== FILE: wrappers.dfy ===
/** Option and Result, the two failure-carrying shapes the model uses. */
module Wrappers {

  datatype Option<+T> = None | Some(value: T)

  datatype Result<+R, +E> = Success(value: R) | Failure(error: E)
}
